=== FILE: README.md ===
# Foodgram backend: a Dafny model

Foodgram is a recipe-sharing service. Users publish recipes built from
tags and ingredient line items. They favourite recipes, put recipes in a
shopping cart, subscribe to authors, and download a shopping list that
sums the cart's ingredients. This project models the backend's core in
Dafny and proves properties of the model. The core is the REST views,
serializers, filters, permissions and pagination, plus the models and the
user manager behind them.

The database is one immutable `Models.Store`:

- users, ingredients, tags and recipes are maps from ids;
- the recipe line items are a sequence, in the order the database returns
  them (no ordering is declared; see "## Left out");
- favourites, the cart and subscriptions are sets of pairs. A subscription
  pair is (subscriber, author), the `user.subscriptions` relation.

`Models.Valid` gathers the model-level rules into one invariant: the field
validators, the unique constraints, references that resolve, and no
self-subscription, the rule `SubscriptionSerializer.validate` states.

Each request is a pure function from a store to a result, or to an
`Outcome` (the store after the request, and the response). The source runs
its writes as separate statements with no enclosing transaction. So a
recipe write that fails part-way keeps its earlier effects, and the model
keeps them too.

Some things are parameters or inputs:

- The abstract settings MIN_COOKING_TIME_VALUE, MIN_INGREDIENT_AMOUNT and
  UNIT_CHOICES are a `Constants` value.
- USERNAME_PATTERN's `re.match` is a predicate parameter.
- The generated uuid, `base64.b64decode` and the storage URL are
  parameters.
- The database's choice of a new recipe id is an argument.
- The row order of a queryset is an argument: a sequence listing the
  queryset's set of ids.

Python's `int(str)` and the `str` methods the code calls are modelled in
`PyInt` and `PyStr`: `split` and `lower`, the last on ASCII letters.
`PyStr.StartsWith` also stands for the ORM lookup `lookup_expr='startswith'`
(backend/api/filters.py:10), a SQL `LIKE 'q%'`. It compares case-sensitively,
as PostgreSQL's LIKE does; SQLite's LIKE ignores ASCII case.

The favourite and cart relations follow the migrations: they are the
many-to-many fields `Recipe.favorited_by` and `Recipe.shopping_cart`
(backend/recipes/migrations/0002_initial.py:23-36), which the views and
serializers use. The fields, their validators and the line-item
constraints follow backend/recipes/models.py, whose `unique_ingredient_recipe`
constraint and positive-integer `amount` column the migrations do not
create. Adding a favourite, a cart entry or a subscription that
already exists is a no-op success, not an error, because the serializers
call `.add`, which tolerates an existing pair. Removing a missing pair also
succeeds. The model follows the code here.

Modules, one per part of the program:

- `Errors`: Option, Result, and the exception kinds.
- `PyInt`, `PyStr`: Python builtins.
- `Models`: the store and its invariant.
- `Permissions`, `Filters`, `Pagination`: the classes of those files.
- `ShoppingList`: the generic dictionary fold that the download performs.
- `Views`: the queryset, class selection, and the download loop.
- `Serializers`: read and validation logic.
- `Relations`: the favourite, cart and subscription toggles.
- `RecipeWrites`: create and update.
- `Managers`: `create_superuser`.

## Model

| member | source | states |
|---|---|---|
| Models.NewIngredient | backend/recipes/models.py:20-25 | a new ingredient keeps its name, and its measurement unit is the given one or "ст. л." when none is given |
| Models.NewTag | backend/recipes/models.py:46-49 | a new tag's colour is the given one or "#FF0000" when none is given |
| Models.NewUser | backend/users/models.py:26-29 | a new user's stored is_subscribed flag is False |
| Models.CleanSubscription | backend/recipes/models.py:218-221 | a subscription is rejected with a ValidationError exactly when user and subscriber are the same |
| Models.ItemsOf | backend/recipes/models.py:114-119 | a recipe's line items are exactly the stored items whose recipe it is |
| Permissions.RecipePermissionView | backend/api/permissions.py:24-27 | anonymous requesters get 401 (NotAuthenticated), and every authenticated one is granted |
| Permissions.RecipePermissionObject | backend/api/permissions.py:29-35 | the permission never answers False: it grants or raises 403 (Forbidden) |
| Permissions.RecipeEndpointAccess | backend/api/views.py:53 | under ReadOnly or IsAuthor, safe methods pass for anyone; unsafe methods pass the view check iff the requester is authenticated |
| Permissions.RecipePermissionAgreesWithIsAuthor | backend/api/permissions.py:15-35 | on PATCH/DELETE, RecipePermission grants exactly when IsAuthor's object check would, and raises 403 exactly when it would refuse; other methods always pass |
| Filters.FilterIsFavorited | backend/api/filters.py:40-43 | "1" keeps exactly the rows annotated as favourited, and any other value leaves the queryset unchanged; on an unannotated (anonymous) queryset "1" is a FieldError |
| Filters.FilterIsInShoppingCart | backend/api/filters.py:45-48 | "1" keeps exactly the rows annotated as in the cart, and any other value leaves the queryset unchanged; unannotated gives a FieldError |
| Filters.FilterByAuthor | backend/api/filters.py:50-54 | called with a value, the method raises ValueError when the value is not an integer literal and 404 for an unknown user; otherwise the rows kept are exactly those whose recipe the user wrote |
| Filters.NonNumericAuthorRefused | backend/api/filters.py:50-51 | a value with no digit in it, such as "me", is a ValueError before any lookup |
| Filters.RecipeFiltersShrink | backend/api/filters.py:40-54 | every recipe filter answers with a sub-queryset of its input: the same kind, no longer, and only rows of the input |
| Filters.FilterIngredientsByName | backend/api/filters.py:10 | the result holds the ingredients whose name starts with the query, and all of them |
| Filters.IngredientFilterMonotone | backend/api/filters.py:10 | an empty query keeps everything, and a longer query narrows the result |
| Views.GetQueryset | backend/api/views.py:58-75 | the corrected queryset, with the annotations built by `Exists` over the filtered queryset itself: all recipes in row order; annotated iff the requester is authenticated, and each flag holds iff the pair is in the requester's favourites or cart |
| Views.GetQuerysetAsWritten | backend/api/views.py:62-68 | as written, an authenticated requester's listing is a ValueError, because `.exists()` runs the `OuterRef` query outside any subquery; anonymous requesters get the plain listing |
| Views.AuthenticatedListingFails | backend/api/views.py:58-75 | every authenticated listing fails as written while the corrected queryset lists every recipe with flags; for anonymous requesters the two agree |
| Views.FavoritedFilterSelectsFavorites | backend/api/views.py:62-73 | on the corrected queryset, with is_favorited=1 an authenticated requester lists exactly their favourites, and an anonymous one gets a FieldError |
| Views.CartFilterSelectsCart | backend/api/views.py:62-73 | on the corrected queryset, with is_in_shopping_cart=1 an authenticated requester lists exactly their cart, and an anonymous one gets a FieldError |
| Views.RecipeSerializerFor | backend/api/views.py:77-80 | the create/update serializer is chosen iff the method is POST, PATCH or DELETE, so safe methods get the list serializer |
| Views.UserSerializerFor | backend/api/views.py:24-27 | the create serializer is chosen exactly for the create action |
| Views.UserEndpointAccess | backend/api/views.py:29-34 | anonymous requesters may only register, or read through list/retrieve; authenticated ones are refused only unsafe methods on list/retrieve |
| Views.AddItems | backend/api/views.py:91-101 | the inner loop extends the dictionary exactly as the per-row fold over the recipe's line items does |
| Views.DownloadShoppingCart | backend/api/views.py:84-101 | the names are exactly the ingredient names of the cart's recipes, each once, in first-seen order; each total sums every such line item over the whole cart; each unit is the first line item's; an empty cart gives an empty list |
| Views.ShoppingListSpec | backend/api/views.py:88-101 | the fold over the cart rows has the properties above, for any listing order of the cart |
| Views.CartKeys | backend/api/views.py:90-101 | an ingredient name is in the list iff some line item of a cart recipe has that name |
| Views.CartTotal | backend/api/views.py:96-97 | a name's total equals the sum over all the cart's line items of that name, independent of the order the recipes come in |
| Views.ShoppingListByUnit | backend/api/views.py:96-101 | the corrected download keyed by (name, unit): distinct keys; each total sums only the items with that name and unit; every (name, unit) present gets an entry, and every entry's (name, unit) occurs on some cart line item |
| ShoppingList.AggregateSpec | backend/api/views.py:88-101 | the dictionary fold has one entry per key, each key once, totals summing all rows of the key, the first row's unit, and keys in first-encounter order |
| ShoppingList.AggregateByUnitSpec | backend/api/views.py:96-101 | keyed by (name, unit), an entry's unit is its key's, its total counts only rows with both that name and that unit, and the entries are exactly the (name, unit) pairs of the rows |
| ShoppingList.MixedUnitsCounterexample | backend/api/views.py:96-101 | 100 g and 2 tbsp of sugar come out as one entry of 102 g; keyed by unit, they give two entries |
| Pagination.GetPageSize | backend/api/paginations.py:5-10 | no limit gives 10; a limit that is not an integer literal, or has more than 4300 digits, is a ValueError; otherwise max(limit, 1), always at least 1 |
| Pagination.NonNumericLimitRefused | backend/api/paginations.py:7-8 | a limit with no digit in it, such as "all", is a ValueError |
| Pagination.PageSizeOfLimit | backend/api/paginations.py:7-10 | limit=str(n) gives n when n is positive and 1 otherwise, for n of at most 4300 digits; a longer one is a ValueError |
| PyInt.ParseIntRoundTrip | backend/api/paginations.py:8 | `int(str(n)) == n` for every integer n with -10^4300 < n < 10^4300, and `int()` refuses the text of any longer integer |
| Serializers.ValidateUsername | backend/api/serializers.py:29-40 | a pattern mismatch is an error, then any case of "me" is; otherwise the name comes back unchanged |
| Serializers.ReservedUsernames | backend/api/serializers.py:36-38 | among matching names, exactly "me", "Me", "mE" and "ME" are refused |
| Serializers.ToInternalValue | backend/api/serializers.py:85-92 | anything but exactly one ";base64," is a ValueError; on success the content is the decoded payload and the file name is uuid + "." + the header's text after its last "/" (a suffix of the header holding no "/"); with one marker, success iff the payload decodes |
| Serializers.DataUrlAccepted | backend/api/serializers.py:85-92 | a data URL `<type>/<ext>;base64,<payload>` decodes to its payload, named uuid.ext |
| Serializers.AfterLastSlash | backend/api/serializers.py:87 | `split('/')[-1]` of `a + "/" + b` is b when b has no "/" |
| Serializers.ToRepresentation | backend/api/serializers.py:94-95 | a file is shown as its URL, and no file as None |
| Serializers.UploadIsRepresented | backend/api/serializers.py:85-95 | an accepted upload is represented by the URL of its generated file name |
| Serializers.IsSubscribed | backend/api/serializers.py:17-21 | False for anonymous requesters; otherwise whether the target is among the requester's subscriptions |
| Serializers.ValidateSubscription | backend/api/serializers.py:236-241 | a missing id is a KeyError; the requester's own id is rejected; any other id passes |
| Serializers.ValidateAgreesWithClean | backend/api/serializers.py:236-241 | validate rejects exactly the pairs that Subscription.clean rejects |
| Serializers.Descending | backend/api/serializers.py:255 | order_by('-id') lists every id once, strictly descending |
| Serializers.GetRecipes | backend/api/serializers.py:253-256 | a negative limit is a ValueError; otherwise the author's min(limit, count) largest recipe ids, descending |
| Serializers.GetRecipesCount | backend/api/serializers.py:258-259 | the count is the number of the author's recipes, whatever the limit |
| Serializers.RecipesWithinCount | backend/api/serializers.py:253-259 | the listing never exceeds the count, and equals it iff the limit is absent or at least the count |
| Relations.AddToFavorites | backend/api/serializers.py:185-190 | answers True; the pair is then a favourite; no other pair and no other part of the store changes |
| Relations.RemoveFromFavorites | backend/api/serializers.py:192-197 | answers True; the pair is then not a favourite; nothing else changes |
| Relations.AddToShoppingCart | backend/api/serializers.py:207-210 | answers True; the pair is then in the cart; nothing else changes |
| Relations.RemoveFromShoppingCart | backend/api/serializers.py:212-215 | answers True; the pair is then not in the cart; nothing else changes |
| Relations.RecipeTogglesRoundTrip | backend/api/serializers.py:185-215 | remove undoes a fresh add; add is idempotent and a no-op on an existing pair |
| Relations.RecipeTogglesPreserveValid | backend/api/serializers.py:185-215 | the favourite and cart toggles keep the store invariant for a stored user and recipe |
| Relations.AddToSubscriptions | backend/api/serializers.py:243-246 | answers True; the pair is then a subscription; nothing else changes; nothing checks subscriber != author |
| Relations.RemoveFromSubscriptions | backend/api/serializers.py:248-251 | answers True; the pair is then not a subscription; nothing else changes |
| Relations.SubscriptionIsAsymmetric | backend/users/models.py:30-36 | subscribing does not subscribe back, and is_subscribed then holds in one direction only |
| Relations.SubscriptionTogglesRoundTrip | backend/api/serializers.py:243-251 | unsubscribe undoes a fresh subscribe, and subscribe is idempotent |
| Relations.SelfSubscriptionAccepted | backend/api/views.py:198-207 | as written, subscribing to oneself answers True and stores the pair that SubscriptionSerializer.validate refuses |
| Relations.Subscribe | backend/api/serializers.py:236-246 | the corrected subscribe fails exactly on a self-subscription and otherwise inserts the pair |
| Relations.SubscriptionTogglesPreserveValid | backend/api/serializers.py:236-251 | the corrected subscribe (validate, then add) and the unsubscribe keep the store invariant, no self-subscription included |
| RecipeWrites.ValidateFields | backend/recipes/models.py:90-97 | passes iff every tag id sent is stored and the cooking time sent lies in the positive-small-integer range 0..32767 and is at least MIN_COOKING_TIME_VALUE |
| RecipeWrites.ValidateAmounts | backend/recipes/models.py:120-129 | passes iff every amount is at least MIN_INGREDIENT_AMOUNT |
| RecipeWrites.CreateLineItems | backend/api/serializers.py:127-144 | an unknown ingredient is 404 before any write; a duplicate ingredient or a negative amount is an IntegrityError; otherwise exactly one item per entry is appended, in order, and nothing else changes |
| RecipeWrites.CreateRecipe | backend/api/serializers.py:146-155 | invalid fields are the ValidationError of is_valid, with the store unchanged; with valid fields, an unknown ingredient answers 404 and a duplicate ingredient or negative amount an IntegrityError; otherwise the recipe is stored with the request's author and tags; a success stores exactly the recipe and one line item per entry, in order, and changes nothing else; a line-item failure leaves exactly the recipe stored, without items |
| RecipeWrites.UpdateRecipe | backend/api/serializers.py:157-175 | unknown id is 404 and invalid fields are the ValidationError of is_valid, both with the store unchanged; a missing tags or ingredients field is a KeyError before any write; with both present, success holds iff creating the line items succeeds after the tags are replaced and the recipe's items cleared, and a failure there answers the line items' own 404 or IntegrityError and leaves exactly that cleared store |
| RecipeWrites.UpdateOkStore | backend/api/serializers.py:157-175 | a successful update leaves the recipe saved with the patch and its items replaced by the new ones, appended after the other recipes' items |
| RecipeWrites.UpdateReplacesContent | backend/api/serializers.py:157-175 | after a successful update, tags and line items are exactly the submitted ones; fields not sent keep their values; other recipes' items and all other rows are unchanged |
| RecipeWrites.DropItemsOf | backend/api/serializers.py:170 | clearing a recipe's ingredients keeps exactly the items of the other recipes |
| RecipeWrites.CreateLineItemsKeepsValid | backend/recipes/models.py:120-138 | appending the line items of a stored recipe, with amounts in range, keeps the store invariant |
| RecipeWrites.CreateRecipeChecked | backend/api/serializers.py:146-155 | the corrected create rejects any amount below MIN_INGREDIENT_AMOUNT first, and otherwise behaves as create |
| RecipeWrites.UpdateRecipeChecked | backend/api/serializers.py:157-175 | the corrected update rejects any amount below MIN_INGREDIENT_AMOUNT first, and otherwise behaves as update |
| RecipeWrites.CreateRecipeCheckedKeepsValid | backend/recipes/models.py:90-138 | the corrected create keeps the store invariant, whether it succeeds or fails part-way |
| RecipeWrites.UpdateRecipeCheckedKeepsValid | backend/recipes/models.py:90-138 | the corrected update keeps the store invariant, whether it succeeds or fails part-way |
| RecipeWrites.ZeroAmountAccepted | backend/api/serializers.py:77 | as written, a recipe with amount 0 is created and leaves a store that breaks MIN_INGREDIENT_AMOUNT |
| Managers.SetDefault | backend/users/managers.py:7-8 | setdefault adds the key only when absent and keeps every existing value |
| Managers.CreateSuperuser | backend/users/managers.py:5-20 | the four checks run in source order and the first failure is the ValueError; success iff both flags are the boolean True (or absent) and both names are truthy; then both flags are set and the other arguments pass through |
| Managers.CreateSuperuserReportsFirstFailure | backend/users/managers.py:5-20 | for every input, success iff no check fails, otherwise the error names the first failing check in written order; on success both setdefault-ed flags are the boolean True and the user gets exactly the defaulted arguments |
| Managers.FlagsNeedTheBooleanTrue | backend/users/managers.py:10-13 | truthy non-boolean flags (1, "yes") are refused, while omitting them succeeds |

## Left out

- Rendering the shopping list: the HTML template and the PDF written by
  WeasyPrint (backend/api/views.py:103-112). This is I/O; the model stops at
  the dictionary passed to the template.
- base64 decoding, uuid generation and the storage URL are parameters,
  not models of those libraries.
- The djoser user endpoints, token authentication, paging and slicing of
  listings, and `get_object`. These are framework code outside the core.
  Only `get_page_size` of the pagination is modelled.
- The favourite and cart view sets declare no queryset, so their
  `get_object` has nothing to look up in. The model starts from the
  serializer methods with the recipe already found.
- The `tags` ModelMultipleChoiceFilter and the ingredient SearchFilter are
  framework filters. Only the `name` prefix filter is modelled.
- `get_subscriptions` (backend/api/views.py:177-196): paging, and
  `int(None)` when `recipes_limit` is absent. `GetRecipes` takes the limit
  already parsed.
- The `FavoriteRecipe` and `ShoppingCartRecipe` tables
  (backend/recipes/models.py:144-193) are not modelled. They would replace
  the migrations' many-to-many fields, and the serializers' `.add` and
  `.remove` calls would not work on them. For these two relations the
  model keeps the many-to-many fields the migrations create.
- The `Recipe.is_in_shopping_cart` column that
  backend/recipes/migrations/0001_initial.py:68-69 creates is not modelled.
  With that column, an anonymous `?is_in_shopping_cart=1` would filter on
  it instead of raising the FieldError that Filters.FilterIsInShoppingCart
  gives under backend/recipes/models.py.
- Models.ItemsOf: a recipe's line items come back in the order the
  sequence holds them. `recipe_ingredient_amounts.all()` declares no
  ordering, so the database's row order is assumed to be insertion order.
  Views.DownloadShoppingCart's first-seen name order and first unit within
  one recipe rest on that assumption.
- RecipeWrites.UpdateRecipe: as written, the view's `get_object` goes
  through `get_queryset`, which fails for every authenticated requester
  (see "## Findings"). Update, retrieve and delete are modelled from the
  corrected queryset onwards.
- Filters.FilterByAuthor and the other filter methods are modelled at the
  method level. django-filter calls a `method=` filter only for a non-empty
  value, after CharFilter strips surrounding whitespace, so `?author=`
  lists every recipe and never reaches the ValueError case.
- Migrations, admin, the import commands and urls.py: configuration and
  data loading.
- backend/api/exceptions.py and backend/api/utils.py: the exception
  classes, and a copy of `get_is_subscribed`. They are not part of this
  model beyond the error kinds they raise.
- `favorited_count` and `favorited_by` (backend/api/serializers.py:188-189,
  195-196) name things the Recipe model does not define. They are left out
  of the favourite toggles.
- RecipeWrites.CreateLineItems: the PositiveSmallIntegerField upper bound
  (32767) on `amount` is not modelled. A larger amount would be a database
  DataError and is stored here.
- PyStr.Lower and PyInt.ParseInt: only ASCII letters are case-folded, and
  only ASCII digits, signs, underscores between digits and the ASCII
  whitespace `int()` strips (space, \t, \n, \r, \v, \f) are read. Python also accepts non-ASCII Unicode digits and spaces.
- Models.Valid: the model keeps one subscription relation, the
  `User.subscriptions` many-to-many field (backend/users/models.py:30-36)
  that the serializers write. The separate `recipes.Subscription` table
  (backend/recipes/models.py:196-225) is not modelled. Its `clean` rule is
  the same condition, but `clean` never sees the many-to-many rows, so the
  no-self-subscription part of `Valid` rests on
  `SubscriptionSerializer.validate` (backend/api/serializers.py:236-241).
- PyInt.ParseInt: the digit limit is CPython's default of 4300 (Python
  3.11 and later, and the 3.10.7 and 3.9.14 backports); an older
  interpreter has none. PyInt.IntToString does not refuse integers of more
  than 4300 digits, as CPython's `str(n)` does; the round-trip lemma
  instead states that `int()` refuses their text.
- PyInt.ParseInt and Views.UserPermissionsFor have no contract of their
  own. They are covered by PyInt.ParseIntRoundTrip and
  Views.UserEndpointAccess.
- Concurrency, and the database's transaction settings: each request runs
  alone on one store.
- Field length limits (max_length), email format and ColorField format are
  not modelled.

## Findings

| source | as written | input that shows it | evidently intended | confidence | as-written member | corrected member |
|---|---|---|---|---|---|---|
| backend/api/views.py:198-207 | `add_to_subscriptions` calls the serializer's `add_to_subscriptions` directly, so `validate` never runs | user 7 POSTs to subscribe to user 7 | a self-subscription is rejected, the rule `SubscriptionSerializer.validate` (backend/api/serializers.py:236-241) states; the corrected half models that rule, not `validate` as written, whose `data['id']` would raise KeyError because `id` is a read-only field | not executed | Relations.SelfSubscriptionAccepted | Relations.Subscribe |
| backend/api/serializers.py:77 | `amount = serializers.IntegerField()` has no minimum, and `bulk_create` skips the model's MinValueValidator | a recipe with ingredients `[{"id": 0, "amount": 0}]` | amounts below MIN_INGREDIENT_AMOUNT are rejected | not executed | RecipeWrites.ZeroAmountAccepted | RecipeWrites.CreateRecipeChecked |
| backend/api/views.py:96-101 | the dictionary is keyed by ingredient name alone, so amounts in different units are added | a cart with 100 g of sugar and 2 tbsp of sugar lists "sugar 102 g" | totals are kept per (name, measurement unit) | not executed | ShoppingList.MixedUnitsCounterexample | Views.ShoppingListByUnit |
| backend/api/views.py:62-68 | the annotations call `.exists()` on a queryset filtered by `OuterRef('pk')`, which runs it outside any subquery, so Django raises ValueError | any authenticated GET of the recipe list | `Exists(Recipe.objects.filter(pk=OuterRef('pk'), ...))`, flagging each recipe the requester favourited or put in the cart | not executed | Views.AuthenticatedListingFails | Views.GetQueryset |

=== FILE: errors.dfy ===
/** Failure values shared by the whole model.

    The backend reports every failure as a structured response; the
    constructors below name the exception the code raises, so that each
    operation can return the error path instead of excluding it. */
module Errors {

  datatype Option<+T> = None | Some(value: T)

  /** The exceptions the modelled code raises. */
  datatype Error =
    | ValidationError(field: string)   // serializers.ValidationError / django ValidationError: 400
    | NotFound                         // Http404 raised by get_object_or_404
    | NotAuthenticated                 // Unauthorized401
    | Forbidden                        // NotEnoughRights403
    | ValueError(reason: string)       // int(), tuple unpacking, base64, create_superuser
    | KeyError(key: string)            // dict.pop of a missing key
    | FieldError(field: string)        // filtering on a field the queryset does not have
    | IntegrityError(constraint: string) // a database constraint rejected the INSERT

  datatype Result<+T> = Ok(value: T) | Err(error: Error) {

    predicate IsFailure() {
      Err?
    }

    function PropagateFailure<U>(): Result<U>
      requires Err?
    {
      Err(error)
    }

    function Extract(): T
      requires Ok?
    {
      value
    }
  }
}

=== FILE: filters.dfy ===
/** The filter sets: the ingredient name prefix filter and the recipe
    filter methods `is_favorited`, `is_in_shopping_cart` and `author`.

    A recipe queryset is either plain or carries the two boolean
    annotations the recipe view adds for authenticated requesters;
    filtering a plain queryset on an annotation raises a FieldError. */
module Filters {
  import opened Errors
  import opened Models
  import PyInt
  import PyStr

  /** A recipe row with the `is_favorited` / `is_in_shopping_cart` annotations. */
  datatype Annotated = Annotated(recipe: RecipeId, isFavorited: bool, isInShoppingCart: bool)

  datatype Queryset = Plain(recipes: seq<RecipeId>) | WithFlags(rows: seq<Annotated>)

  /** The recipes of a queryset, in row order. */
  function Ids(q: Queryset): (ids: seq<RecipeId>)
    ensures q.Plain? ==> ids == q.recipes
    ensures q.WithFlags? ==> |ids| == |q.rows| && forall i :: 0 <= i < |ids| ==> ids[i] == q.rows[i].recipe
  {
    match q
    case Plain(recipes) => recipes
    case WithFlags(rows) => seq(|rows|, i requires 0 <= i < |rows| => rows[i].recipe)
  }

  /** `queryset.filter(...)`: the rows satisfying `p`, in their order. */
  function Keep<T>(xs: seq<T>, p: T -> bool): (r: seq<T>)
    ensures |r| <= |xs|
    ensures forall i :: 0 <= i < |r| ==> r[i] in xs && p(r[i])
    ensures forall i :: 0 <= i < |xs| ==> p(xs[i]) ==> xs[i] in r
  {
    if xs == [] then []
    else
      var front := Keep(xs[..|xs| - 1], p);
      var last := xs[|xs| - 1];
      assert forall i :: 0 <= i < |xs| - 1 ==> xs[i] == xs[..|xs| - 1][i];
      if p(last) then front + [last] else front
  }

  lemma {:induction false} KeepAll<T>(xs: seq<T>, p: T -> bool)
    requires forall i :: 0 <= i < |xs| ==> p(xs[i])
    ensures Keep(xs, p) == xs
  {
    if xs != [] {
      KeepAll(xs[..|xs| - 1], p);
      assert xs[..|xs| - 1] + [xs[|xs| - 1]] == xs;
    }
  }

  /** Keeps the rows whose recipe satisfies `p`; the kind of queryset is kept. */
  function KeepRecipes(q: Queryset, p: RecipeId -> bool): Queryset
  {
    match q
    case Plain(recipes) => Plain(Keep(recipes, p))
    case WithFlags(rows) => WithFlags(Keep(rows, (a: Annotated) => p(a.recipe)))
  }

  /** `sub` is a queryset of the same kind whose rows all come from `q`. */
  ghost predicate SubQueryset(sub: Queryset, q: Queryset) {
    && sub.Plain? == q.Plain?
    && |Ids(sub)| <= |Ids(q)|
    && (sub.Plain? ==> forall i :: 0 <= i < |sub.recipes| ==> sub.recipes[i] in q.recipes)
    && (sub.WithFlags? ==> forall i :: 0 <= i < |sub.rows| ==> sub.rows[i] in q.rows)
  }

  lemma KeepRecipesSpec(q: Queryset, p: RecipeId -> bool)
    ensures SubQueryset(KeepRecipes(q, p), q)
    ensures forall x :: x in Ids(KeepRecipes(q, p)) <==> x in Ids(q) && p(x)
  {
    var r := KeepRecipes(q, p);
    forall x
      ensures x in Ids(r) <==> x in Ids(q) && p(x)
    {
      if x in Ids(r) {
        var i :| 0 <= i < |Ids(r)| && Ids(r)[i] == x;
        if q.WithFlags? {
          assert r.rows[i] in q.rows;
          var j :| 0 <= j < |q.rows| && q.rows[j] == r.rows[i];
          assert Ids(q)[j] == x;
        }
      }
      if x in Ids(q) && p(x) {
        var j :| 0 <= j < |Ids(q)| && Ids(q)[j] == x;
        if q.WithFlags? {
          assert q.rows[j] in r.rows;
          var i :| 0 <= i < |r.rows| && r.rows[i] == q.rows[j];
          assert Ids(r)[i] == x;
        }
      }
    }
  }

  /** `filter_is_favorited`: "1" keeps the rows annotated as favourited;
      any other value leaves the queryset as it is. */
  function FilterIsFavorited(q: Queryset, value: string): (r: Result<Queryset>)
    ensures value != "1" ==> r == Ok(q)
    ensures value == "1" ==> (r.Err? <==> q.Plain?)
    ensures r.Err? ==> r.error == FieldError("is_favorited")
    ensures r.Ok? ==> SubQueryset(r.value, q)
    ensures value == "1" && r.Ok? ==>
      forall a :: a in r.value.rows <==> a in q.rows && a.isFavorited
  {
    if value != "1" then Ok(q)
    else match q
      case Plain(_) => Err(FieldError("is_favorited"))
      case WithFlags(rows) => Ok(WithFlags(Keep(rows, (a: Annotated) => a.isFavorited)))
  }

  /** `filter_is_in_shopping_cart`: "1" keeps the rows annotated as in the
      cart; any other value leaves the queryset as it is. */
  function FilterIsInShoppingCart(q: Queryset, value: string): (r: Result<Queryset>)
    ensures value != "1" ==> r == Ok(q)
    ensures value == "1" ==> (r.Err? <==> q.Plain?)
    ensures r.Err? ==> r.error == FieldError("is_in_shopping_cart")
    ensures r.Ok? ==> SubQueryset(r.value, q)
    ensures value == "1" && r.Ok? ==>
      forall a :: a in r.value.rows <==> a in q.rows && a.isInShoppingCart
  {
    if value != "1" then Ok(q)
    else match q
      case Plain(_) => Err(FieldError("is_in_shopping_cart"))
      case WithFlags(rows) => Ok(WithFlags(Keep(rows, (a: Annotated) => a.isInShoppingCart)))
  }

  /** `filter_by_author`: `get_object_or_404(User, id=value)` (a ValueError
      when the value is not a number, 404 for an unknown user), then the
      rows whose recipe that user wrote. */
  function FilterByAuthor(s: Store, q: Queryset, value: string): (r: Result<Queryset>)
    ensures PyInt.ParseInt(value).None? ==> r.Err? && r.error.ValueError?
    ensures PyInt.ParseInt(value).Some? ==>
      (r.Err? <==> !(PyInt.ParseInt(value).value >= 0 && PyInt.ParseInt(value).value in s.users))
    ensures r.Err? && PyInt.ParseInt(value).Some? ==> r.error == NotFound
    ensures r.Ok? ==> SubQueryset(r.value, q)
    ensures r.Ok? ==> forall x :: x in Ids(r.value) <==>
      x in Ids(q) && x in s.recipes && s.recipes[x].author == PyInt.ParseInt(value).value
  {
    match PyInt.ParseInt(value)
    case None => Err(ValueError("id"))
    case Some(id) =>
      if id < 0 || id !in s.users then Err(NotFound)
      else
        var written := RecipesOf(s, id);
        KeepRecipesSpec(q, (x: RecipeId) => x in written);
        Ok(KeepRecipes(q, (x: RecipeId) => x in written))
  }

  /** An `author` value with no digit in it (`?author=me`) is not an
      integer literal: `int(value)` raises ValueError before any lookup. */
  lemma NonNumericAuthorRefused(s: Store, q: Queryset, value: string)
    requires forall j :: 0 <= j < |value| ==> !PyInt.IsDigit(value[j])
    ensures FilterByAuthor(s, q, value) == Err(ValueError("id"))
  {
    PyInt.ParseIntNeedsDigit(value);
  }

  /** Every recipe filter answers with a sub-queryset of its input. */
  lemma RecipeFiltersShrink(s: Store, q: Queryset, value: string)
    ensures FilterIsFavorited(q, value).Ok? ==> SubQueryset(FilterIsFavorited(q, value).value, q)
    ensures FilterIsInShoppingCart(q, value).Ok? ==> SubQueryset(FilterIsInShoppingCart(q, value).value, q)
    ensures FilterByAuthor(s, q, value).Ok? ==> SubQueryset(FilterByAuthor(s, q, value).value, q)
  {
  }

  /** `IngredientFilter.name`: the ingredients whose name starts with the query. */
  function FilterIngredientsByName(ingredients: seq<Ingredient>, query: string): (r: seq<Ingredient>)
    ensures forall i :: 0 <= i < |r| ==> r[i] in ingredients && PyStr.StartsWith(r[i].name, query)
    ensures forall i :: 0 <= i < |ingredients| ==>
      PyStr.StartsWith(ingredients[i].name, query) ==> ingredients[i] in r
  {
    Keep(ingredients, (g: Ingredient) => PyStr.StartsWith(g.name, query))
  }

  /** An empty query keeps every ingredient, and lengthening the query can
      only narrow the result. */
  lemma IngredientFilterMonotone(ingredients: seq<Ingredient>, shorter: string, longer: string)
    requires PyStr.StartsWith(longer, shorter)
    ensures FilterIngredientsByName(ingredients, "") == ingredients
    ensures forall g :: g in FilterIngredientsByName(ingredients, longer) ==>
      g in FilterIngredientsByName(ingredients, shorter)
  {
    KeepAll(ingredients, (g: Ingredient) => PyStr.StartsWith(g.name, ""));
    forall g | g in FilterIngredientsByName(ingredients, longer)
      ensures g in FilterIngredientsByName(ingredients, shorter)
    {
      assert PyStr.StartsWith(g.name, longer);
      assert g.name[..|shorter|] == longer[..|shorter|];
      var j :| 0 <= j < |ingredients| && ingredients[j] == g;
    }
  }
}

=== FILE: managers.dfy ===
/** `CustomUserManager.create_superuser`: defaults for the two flags, then
    four checks in a fixed order, then delegation to `_create_user`. */
module Managers {
  import opened Errors

  /** The Python values a keyword argument can carry here. */
  datatype PyValue = Bool(b: bool) | Int(i: int) | Str(s: string) | NoneValue

  /** Python truthiness. */
  predicate Truthy(v: PyValue) {
    match v
    case Bool(b) => b
    case Int(i) => i != 0
    case Str(s) => s != ""
    case NoneValue => false
  }

  /** `extra_fields.get(key)`: None when the key is absent. */
  function Get(extra: map<string, PyValue>, key: string): (v: PyValue)
    ensures key !in extra ==> v == NoneValue
    ensures key in extra ==> v == extra[key]
  {
    if key in extra then extra[key] else NoneValue
  }

  /** `extra_fields.setdefault(key, value)`, keeping only the updated map. */
  function SetDefault(extra: map<string, PyValue>, key: string, value: PyValue): (m: map<string, PyValue>)
    ensures key in m
    ensures key in extra ==> m == extra
    ensures key !in extra ==> m[key] == value && m - {key} == extra
  {
    if key in extra then extra else extra[key := value]
  }

  /** The arguments handed to `_create_user`. */
  datatype CreateUserCall = CreateUserCall(
    username: string,
    email: Option<string>,
    password: Option<string>,
    extra: map<string, PyValue>)

  const StaffMessage: string := "Superuser must have is_staff=True."
  const SuperuserMessage: string := "Superuser must have is_superuser=True."
  const FirstNameMessage: string := "The first_name field must be set"
  const LastNameMessage: string := "The last_name field must be set"

  /** The keyword arguments once both flags have their defaults. */
  function WithDefaults(extra: map<string, PyValue>): map<string, PyValue>
  {
    SetDefault(SetDefault(extra, "is_staff", Bool(true)), "is_superuser", Bool(true))
  }

  /** The flag is absent (and so defaults to True) or is the boolean True. */
  predicate FlagIsTrue(extra: map<string, PyValue>, key: string) {
    key !in extra || extra[key] == Bool(true)
  }

  /** `create_superuser`: a flag passes only when it `is True` (the boolean,
      not merely a truthy value), a name when it is truthy; the checks run in
      the order is_staff, is_superuser, first_name, last_name and the first
      failing one decides the error. */
  function CreateSuperuser(username: string, email: Option<string>, password: Option<string>,
                           extra: map<string, PyValue>): (r: Result<CreateUserCall>)
    ensures !FlagIsTrue(extra, "is_staff") ==> r == Err(ValueError(StaffMessage))
    ensures FlagIsTrue(extra, "is_staff") && !FlagIsTrue(extra, "is_superuser") ==>
      r == Err(ValueError(SuperuserMessage))
    ensures (FlagIsTrue(extra, "is_staff") && FlagIsTrue(extra, "is_superuser") &&
             !Truthy(Get(extra, "first_name"))) ==> r == Err(ValueError(FirstNameMessage))
    ensures (FlagIsTrue(extra, "is_staff") && FlagIsTrue(extra, "is_superuser") &&
             Truthy(Get(extra, "first_name")) && !Truthy(Get(extra, "last_name"))) ==>
      r == Err(ValueError(LastNameMessage))
    ensures r.Ok? <==>
      FlagIsTrue(extra, "is_staff") && FlagIsTrue(extra, "is_superuser") &&
      Truthy(Get(extra, "first_name")) && Truthy(Get(extra, "last_name"))
    ensures r.Ok? ==>
      && r.value.username == username && r.value.email == email && r.value.password == password
      && r.value.extra.Keys == extra.Keys + {"is_staff", "is_superuser"}
      && r.value.extra["is_staff"] == Bool(true)
      && r.value.extra["is_superuser"] == Bool(true)
      && forall k :: k in extra ==> r.value.extra[k] == extra[k]
  {
    var fields := WithDefaults(extra);
    if fields["is_staff"] != Bool(true) then Err(ValueError(StaffMessage))
    else if fields["is_superuser"] != Bool(true) then Err(ValueError(SuperuserMessage))
    else if !Truthy(Get(fields, "first_name")) then Err(ValueError(FirstNameMessage))
    else if !Truthy(Get(fields, "last_name")) then Err(ValueError(LastNameMessage))
    else Ok(CreateUserCall(username, email, password, fields))
  }

  /** The messages of every check the arguments fail, in the order the
      checks are written. */
  function Failures(extra: map<string, PyValue>): (fs: seq<string>)
    ensures |fs| <= 4
    ensures forall i :: 0 <= i < |fs| ==>
      fs[i] in {StaffMessage, SuperuserMessage, FirstNameMessage, LastNameMessage}
  {
    (if FlagIsTrue(extra, "is_staff") then [] else [StaffMessage])
    + (if FlagIsTrue(extra, "is_superuser") then [] else [SuperuserMessage])
    + (if Truthy(Get(extra, "first_name")) then [] else [FirstNameMessage])
    + (if Truthy(Get(extra, "last_name")) then [] else [LastNameMessage])
  }

  /** For every input: `create_superuser` succeeds exactly when no check
      fails, and otherwise reports the first failing check; success means
      both flags, once defaulted with `setdefault`, are exactly the boolean
      True, and the created user carries those flags. */
  lemma CreateSuperuserReportsFirstFailure(username: string, email: Option<string>, password: Option<string>,
                                           extra: map<string, PyValue>)
    ensures CreateSuperuser(username, email, password, extra).Ok? <==> Failures(extra) == []
    ensures Failures(extra) != [] ==>
      CreateSuperuser(username, email, password, extra) == Err(ValueError(Failures(extra)[0]))
    ensures CreateSuperuser(username, email, password, extra).Ok? ==>
      && SetDefault(extra, "is_staff", Bool(true))["is_staff"] == Bool(true)
      && SetDefault(extra, "is_superuser", Bool(true))["is_superuser"] == Bool(true)
      && CreateSuperuser(username, email, password, extra).value.extra == WithDefaults(extra)
  {
  }

  /** Truthy values that are not the boolean True (1, "yes") are refused
      for the flags, while leaving both flags out succeeds. */
  lemma FlagsNeedTheBooleanTrue(extra: map<string, PyValue>)
    requires "first_name" in extra && "last_name" in extra
    requires Truthy(extra["first_name"]) && Truthy(extra["last_name"])
    ensures CreateSuperuser("admin", None, None, extra["is_staff" := Int(1)]) == Err(ValueError(StaffMessage))
    ensures CreateSuperuser("admin", None, None, extra - {"is_staff", "is_superuser"}).Ok?
    ensures CreateSuperuser("admin", None, None, (extra - {"is_staff"})["is_superuser" := Str("yes")]) ==
      Err(ValueError(SuperuserMessage))
  {
    var plain := extra - {"is_staff", "is_superuser"};
    assert Get(plain, "first_name") == extra["first_name"];
    assert Get(plain, "last_name") == extra["last_name"];
  }
}

=== FILE: models.dfy ===
/** The relational store behind the recipe backend: users, ingredients,
    tags, recipes, recipe line items, and the three user relations
    (favourites, shopping cart, subscriptions), with the field validators
    and uniqueness constraints the models declare, gathered into `Valid`. */
module Models {
  import opened Errors

  type UserId = nat
  type RecipeId = nat
  type IngredientId = nat
  type TagId = nat

  /** The user a request carries: anonymous, or a stored user. */
  datatype Requester = Anonymous | Authenticated(id: UserId)

  datatype User = User(
    email: string,
    username: string,
    firstName: string,
    lastName: string,
    isSubscribed: bool)

  datatype Ingredient = Ingredient(name: string, unit: string)

  datatype Tag = Tag(name: string, color: string, slug: string)

  datatype Recipe = Recipe(
    author: UserId,
    tags: set<TagId>,
    name: string,
    image: string,
    text: string,
    cookingTime: int)

  /** A RecipeIngredientAmount row. */
  datatype LineItem = LineItem(recipe: RecipeId, ingredient: IngredientId, amount: int)

  /** The database. Line items are kept in table order, which is the order
      in which `recipe.recipe_ingredient_amounts.all()` yields them. The
      relations hold (user, recipe) pairs, and subscriptions hold
      (subscriber, author) pairs: the `user.subscriptions` relation. */
  datatype Store = Store(
    users: map<UserId, User>,
    ingredients: map<IngredientId, Ingredient>,
    tags: map<TagId, Tag>,
    recipes: map<RecipeId, Recipe>,
    lineItems: seq<LineItem>,
    favorites: set<(UserId, RecipeId)>,
    cart: set<(UserId, RecipeId)>,
    subscriptions: set<(UserId, UserId)>)

  /** The values of MIN_COOKING_TIME_VALUE, MIN_INGREDIENT_AMOUNT and
      UNIT_CHOICES, which live in a constants module outside this model. */
  datatype Constants = Constants(
    minCookingTime: int,
    minIngredientAmount: int,
    unitChoices: set<string>)

  const DefaultUnit: string := "ст. л."
  const DefaultTagColor: string := "#FF0000"

  /** A new Ingredient row: the measurement unit defaults to "ст. л.". */
  function NewIngredient(name: string, unit: Option<string>): (i: Ingredient)
    ensures i.name == name
    ensures unit.None? ==> i.unit == DefaultUnit
    ensures unit.Some? ==> i.unit == unit.value
  {
    Ingredient(name, if unit.Some? then unit.value else DefaultUnit)
  }

  /** A new Tag row: the colour defaults to "#FF0000". */
  function NewTag(name: string, color: Option<string>, slug: string): (t: Tag)
    ensures t.name == name && t.slug == slug
    ensures color.None? ==> t.color == DefaultTagColor
    ensures color.Some? ==> t.color == color.value
  {
    Tag(name, if color.Some? then color.value else DefaultTagColor, slug)
  }

  /** A new User row: the stored `is_subscribed` flag starts out False. */
  function NewUser(email: string, username: string, firstName: string, lastName: string): (u: User)
    ensures !u.isSubscribed
    ensures u.email == email && u.username == username
  {
    User(email, username, firstName, lastName, false)
  }

  /** `Subscription.clean`: a user cannot subscribe to themselves. */
  function CleanSubscription(user: UserId, subscriber: UserId): (r: Result<()>)
    ensures r.Err? <==> user == subscriber
    ensures r.Err? ==> r.error.ValidationError?
  {
    if user == subscriber then Err(ValidationError("subscriber")) else Ok(())
  }

  /** The line items of recipe `r`, in table order. */
  function ItemsOf(items: seq<LineItem>, r: RecipeId): (out: seq<LineItem>)
    ensures |out| <= |items|
    ensures forall li :: li in out <==> li in items && li.recipe == r
  {
    if items == [] then []
    else
      var front := ItemsOf(items[..|items| - 1], r);
      var last := items[|items| - 1];
      assert items == items[..|items| - 1] + [last];
      if last.recipe == r then front + [last] else front
  }

  /** The ids a sequence lists, as a set: a submitted tag list, or the
      recipes a queryset order lists. */
  function Elements(xs: seq<nat>): (e: set<nat>)
    ensures forall x :: x in e <==> x in xs
  {
    set x | x in xs
  }

  // ---------------------------------------------------------------------
  // Invariants of the store

  /** Foreign keys point at stored rows, as the ON DELETE CASCADE keys keep them. */
  ghost predicate ReferencesResolve(s: Store) {
    && (forall r :: r in s.recipes ==> s.recipes[r].author in s.users)
    && (forall r :: r in s.recipes ==> s.recipes[r].tags <= s.tags.Keys)
    && (forall li :: li in s.lineItems ==> li.recipe in s.recipes && li.ingredient in s.ingredients)
    && (forall u, r :: (u, r) in s.favorites ==> u in s.users && r in s.recipes)
    && (forall u, r :: (u, r) in s.cart ==> u in s.users && r in s.recipes)
    && (forall u, v :: (u, v) in s.subscriptions ==> u in s.users && v in s.users)
  }

  /** The MinValueValidator and choices constraints of the fields. */
  ghost predicate FieldsInRange(s: Store, c: Constants) {
    && (forall r :: r in s.recipes ==> s.recipes[r].cookingTime >= c.minCookingTime)
    && (forall li :: li in s.lineItems ==> li.amount >= c.minIngredientAmount)
    && (forall i :: i in s.ingredients ==> s.ingredients[i].unit in c.unitChoices)
  }

  /** Email and username are each unique across users. */
  ghost predicate UniqueUsers(s: Store) {
    forall a, b :: a in s.users && b in s.users && a != b ==>
      s.users[a].email != s.users[b].email && s.users[a].username != s.users[b].username
  }

  /** (name, measurement_unit) is unique across ingredients. */
  ghost predicate UniqueIngredients(s: Store) {
    forall a, b :: a in s.ingredients && b in s.ingredients && a != b ==>
      s.ingredients[a] != s.ingredients[b]
  }

  /** Tag name and slug are each unique. */
  ghost predicate UniqueTags(s: Store) {
    forall a, b :: a in s.tags && b in s.tags && a != b ==>
      s.tags[a].name != s.tags[b].name && s.tags[a].slug != s.tags[b].slug
  }

  /** At most one line item per (ingredient, recipe). */
  ghost predicate UniqueLineItems(items: seq<LineItem>) {
    forall i, j :: 0 <= i < j < |items| ==>
      items[i].recipe != items[j].recipe || items[i].ingredient != items[j].ingredient
  }

  /** No user is subscribed to themselves: the rule `SubscriptionSerializer.validate`
      states for the `user.subscriptions` relation (and `Subscription.clean`
      for the separate Subscription table). */
  ghost predicate NoSelfSubscription(s: Store) {
    forall u, v :: (u, v) in s.subscriptions ==> u != v
  }

  /** Everything the models promise about a stored state. Favourite, cart and
      subscription rows are unique per pair by being sets of pairs. */
  ghost predicate Valid(s: Store, c: Constants) {
    && ReferencesResolve(s)
    && FieldsInRange(s, c)
    && UniqueUsers(s)
    && UniqueIngredients(s)
    && UniqueTags(s)
    && UniqueLineItems(s.lineItems)
    && NoSelfSubscription(s)
  }

  /** `order` lists the elements of `ids` once each: the row order a query
      over those ids returns. */
  ghost predicate IsListing(ids: set<nat>, order: seq<nat>) {
    && (forall i, j :: 0 <= i < j < |order| ==> order[i] != order[j])
    && (forall x :: x in order <==> x in ids)
  }

  /** The recipes in user `u`'s shopping cart. */
  function CartOf(s: Store, u: UserId): set<RecipeId> {
    set r | r in s.recipes && (u, r) in s.cart
  }

  /** The recipes written by `author`. */
  function RecipesOf(s: Store, author: UserId): set<RecipeId> {
    set r | r in s.recipes && s.recipes[r].author == author
  }
}

=== FILE: pagination.dfy ===
/** `CustomPagination`: page-number pagination whose page size comes from
    the `limit` query parameter. */
module Pagination {
  import opened Errors
  import PyInt

  /** The default `page_size`. */
  const DefaultPageSize: int := 10

  /** `get_page_size`: `int(limit)` (10 when absent), raised to at least 1;
      a `limit` that is not an integer literal raises ValueError. */
  function GetPageSize(limit: Option<string>): (r: Result<int>)
    ensures limit.None? ==> r == Ok(DefaultPageSize)
    ensures limit.Some? ==> (r.Err? <==> PyInt.ParseInt(limit.value).None?)
    ensures r.Err? ==> r.error.ValueError?
    ensures r.Ok? ==> r.value >= 1
    ensures limit.Some? && r.Ok? ==>
      r.value == (if PyInt.ParseInt(limit.value).value >= 1 then PyInt.ParseInt(limit.value).value else 1)
  {
    match limit
    case None => Ok(DefaultPageSize)
    case Some(text) =>
      match PyInt.ParseInt(text)
      case None => Err(ValueError("limit"))
      case Some(n) => Ok(if n >= 1 then n else 1)
  }

  /** A client that sends `limit=str(n)` gets pages of `n` items when `n`
      is positive, and of one item otherwise; a limit of more than
      MaxStrDigits digits is a ValueError. */
  lemma PageSizeOfLimit(n: int)
    ensures 1 <= n < PyInt.Pow10(PyInt.MaxStrDigits) ==> GetPageSize(Some(PyInt.IntToString(n))) == Ok(n)
    ensures -PyInt.Pow10(PyInt.MaxStrDigits) < n < 1 ==> GetPageSize(Some(PyInt.IntToString(n))) == Ok(1)
    ensures n <= -PyInt.Pow10(PyInt.MaxStrDigits) || PyInt.Pow10(PyInt.MaxStrDigits) <= n ==>
      GetPageSize(Some(PyInt.IntToString(n))) == Err(ValueError("limit"))
  {
    PyInt.ParseIntRoundTrip(n);
  }

  /** A `limit` with no digit in it (`?limit=`, `?limit=all`) is not an
      integer literal: the request fails with ValueError. */
  lemma NonNumericLimitRefused(text: string)
    requires forall j :: 0 <= j < |text| ==> !PyInt.IsDigit(text[j])
    ensures GetPageSize(Some(text)) == Err(ValueError("limit"))
  {
    PyInt.ParseIntNeedsDigit(text);
  }
}

=== FILE: permissions.dfy ===
/** The permission classes: pure functions of the request method, whether
    the requester is authenticated, and whether the requester is the
    object's author. `RecipePermission` raises instead of answering False,
    which the model renders as an error result. */
module Permissions {
  import opened Errors
  import opened Models

  /** SAFE_METHODS of the REST framework. */
  predicate IsSafe(verb: string) {
    verb == "GET" || verb == "HEAD" || verb == "OPTIONS"
  }

  /** `ReadOnly.has_permission`. */
  predicate ReadOnly(verb: string) {
    IsSafe(verb)
  }

  /** `IsAuthenticated.has_permission`. */
  predicate IsAuthenticated(req: Requester) {
    req.Authenticated?
  }

  /** `IsAuthor.has_permission`. */
  predicate IsAuthorView(req: Requester) {
    req.Authenticated?
  }

  /** `IsAuthor.has_object_permission`: `obj.author == request.user`; an
      anonymous requester equals no stored user. */
  predicate IsAuthorObject(req: Requester, author: UserId) {
    req.Authenticated? && req.id == author
  }

  /** `RecipePermission.has_permission`: 401 for anonymous requesters,
      True otherwise. */
  function RecipePermissionView(req: Requester): (r: Result<bool>)
    ensures r.Ok? ==> r.value
    ensures r.Err? ==> r.error == NotAuthenticated
    ensures r.Ok? <==> IsAuthenticated(req)
  {
    if !req.Authenticated? then Err(NotAuthenticated) else Ok(true)
  }

  /** `RecipePermission.has_object_permission`: PATCH and DELETE are for the
      author only (403 for anyone else); every other verb passes. */
  function RecipePermissionObject(verb: string, req: Requester, author: UserId): (r: Result<bool>)
    ensures r.Ok? ==> r.value
    ensures r.Err? ==> r.error == Forbidden
  {
    if verb == "PATCH" || verb == "DELETE" then
      if req.Authenticated? && req.id == author then Ok(true) else Err(Forbidden)
    else Ok(true)
  }

  /** The view-level check of the recipe endpoint: `ReadOnly | IsAuthor`. */
  predicate RecipeViewAllows(verb: string, req: Requester) {
    ReadOnly(verb) || IsAuthorView(req)
  }

  /** On the recipe endpoint safe methods pass for anyone, and unsafe ones
      pass the view-level check exactly when the requester is authenticated. */
  lemma RecipeEndpointAccess(verb: string, req: Requester)
    ensures IsSafe(verb) ==> RecipeViewAllows(verb, req)
    ensures !IsSafe(verb) ==> (RecipeViewAllows(verb, req) <==> req.Authenticated?)
  {
  }

  /** `RecipePermission` never answers False: on PATCH and DELETE it grants
      exactly what `IsAuthor` grants at object level and raises 403 where
      `IsAuthor` would refuse; other methods pass whoever asks. */
  lemma RecipePermissionAgreesWithIsAuthor(verb: string, req: Requester, author: UserId)
    ensures (verb == "PATCH" || verb == "DELETE") ==>
      (RecipePermissionObject(verb, req, author) == Ok(true) <==> IsAuthorObject(req, author))
    ensures (verb == "PATCH" || verb == "DELETE") ==>
      (RecipePermissionObject(verb, req, author) == Err(Forbidden) <==> !IsAuthorObject(req, author))
    ensures !(verb == "PATCH" || verb == "DELETE") ==>
      RecipePermissionObject(verb, req, author) == Ok(true)
    ensures RecipePermissionView(req) == Ok(true) <==> IsAuthorView(req)
  {
  }
}

=== FILE: pyint.dfy ===
/** Python's `int(text)` in base 10, as the query-string handling applies it
    to `limit`, `recipes_limit` and primary keys, together with its inverse
    `str(n)`. */
module PyInt {
  import opened Errors

  predicate IsDigit(c: char) {
    '0' <= c <= '9'
  }

  /** The ASCII whitespace `int()` ignores around the number: space, tab,
      line feed, carriage return, vertical tab and form feed. */
  predicate IsSpace(c: char) {
    c == ' ' || c == '\t' || c == '\n' || c == '\r' || c == '\U{0B}' || c == '\U{0C}'
  }

  /** The most digits `int()` reads from a decimal literal: CPython's
      default `sys.get_int_max_str_digits()`. A longer literal is a
      ValueError. */
  const MaxStrDigits: nat := 4300

  /** The number of decimal digits in `s`; underscores do not count. */
  function DigitCount(s: string): (n: nat)
    ensures n <= |s|
  {
    if |s| == 0 then 0
    else DigitCount(s[..|s| - 1]) + (if IsDigit(s[|s| - 1]) then 1 else 0)
  }

  function Pow10(k: nat): (p: int)
    ensures p >= 1
  {
    if k == 0 then 1 else 10 * Pow10(k - 1)
  }

  function TrimLeft(s: string): (r: string)
    ensures |r| <= |s| && r == s[|s| - |r|..]
    ensures |r| > 0 ==> !IsSpace(r[0])
  {
    if |s| > 0 && IsSpace(s[0]) then TrimLeft(s[1..]) else s
  }

  function TrimRight(s: string): (r: string)
    ensures |r| <= |s| && r == s[..|r|]
    ensures |r| > 0 ==> !IsSpace(r[|r| - 1])
  {
    if |s| > 0 && IsSpace(s[|s| - 1]) then TrimRight(s[..|s| - 1]) else s
  }

  /** Every character of the stripped text is a character of the input. */
  function Strip(s: string): (r: string)
    ensures forall k :: 0 <= k < |r| ==> exists j :: 0 <= j < |s| && s[j] == r[k]
  {
    var t := TrimLeft(s);
    var r := TrimRight(t);
    assert forall k :: 0 <= k < |r| ==> r[k] == s[|s| - |t| + k];
    r
  }

  /** Decimal digits with single underscores between them, as in "1_000". */
  predicate IsDigitGroups(s: string) {
    && |s| > 0
    && IsDigit(s[0])
    && IsDigit(s[|s| - 1])
    && (forall i :: 0 <= i < |s| ==> IsDigit(s[i]) || s[i] == '_')
    && (forall i :: 0 <= i < |s| - 1 ==> s[i] == '_' ==> s[i + 1] != '_')
  }

  function DigitValue(c: char): nat
    requires IsDigit(c)
  {
    (c as int) - ('0' as int)
  }

  /** The number a run of digits denotes; underscores are skipped. */
  function DigitsValue(s: string): nat
    requires forall i :: 0 <= i < |s| ==> IsDigit(s[i]) || s[i] == '_'
  {
    if |s| == 0 then 0
    else if s[|s| - 1] == '_' then DigitsValue(s[..|s| - 1])
    else DigitsValue(s[..|s| - 1]) * 10 + DigitValue(s[|s| - 1])
  }

  /** `int(s)`: None stands for the ValueError Python raises. */
  function ParseInt(s: string): Option<int>
  {
    ParseStripped(Strip(s))
  }

  /** `int(t)` for a text with no surrounding whitespace: an optional sign,
      then the digits. */
  function ParseStripped(t: string): Option<int>
  {
    if |t| > 0 && (t[0] == '+' || t[0] == '-') then
      match ReadDigits(t[1..])
      case None => None
      case Some(v) => Some(if t[0] == '-' then -(v as int) else v)
    else ReadDigits(t)
  }

  /** Digit groups holding at most MaxStrDigits digits, read as a number. */
  function ReadDigits(body: string): Option<nat>
  {
    if IsDigitGroups(body) && DigitCount(body) <= MaxStrDigits then Some(DigitsValue(body)) else None
  }

  function DigitChar(d: nat): (c: char)
    requires d < 10
    ensures IsDigit(c) && DigitValue(c) == d
  {
    (('0' as int) + d) as char
  }

  function NatToString(n: nat): (r: string)
    ensures |r| > 0
    ensures forall i :: 0 <= i < |r| ==> IsDigit(r[i])
  {
    if n < 10 then [DigitChar(n)] else NatToString(n / 10) + [DigitChar(n % 10)]
  }

  /** `str(n)`. */
  function IntToString(n: int): string
  {
    if n < 0 then "-" + NatToString(-n) else NatToString(n)
  }

  lemma {:induction false} NatToStringValue(n: nat)
    ensures DigitsValue(NatToString(n)) == n
  {
    if n >= 10 {
      var s := NatToString(n);
      assert s[..|s| - 1] == NatToString(n / 10);
      NatToStringValue(n / 10);
    }
  }

  /** `str(m)` has just enough digits for `m`: `m < 10^L` for its length
      L, and `10^(L-1) <= m` once there are two digits or more. */
  lemma {:induction false} NatToStringLength(m: nat)
    ensures m < Pow10(|NatToString(m)|)
    ensures m >= 10 ==> Pow10(|NatToString(m)| - 1) <= m
  {
    if m >= 10 {
      NatToStringLength(m / 10);
      assert |NatToString(m)| == |NatToString(m / 10)| + 1;
    }
  }

  lemma {:induction false} Pow10Monotone(a: nat, b: nat)
    requires a <= b
    ensures Pow10(a) <= Pow10(b)
    decreases b
  {
    if a < b {
      Pow10Monotone(a, b - 1);
    }
  }

  /** `str(m)` has at most `k` digits exactly when `m < 10^k`. */
  lemma NatToStringFits(m: nat, k: nat)
    requires k >= 1
    ensures |NatToString(m)| <= k <==> m < Pow10(k)
  {
    var len := |NatToString(m)|;
    NatToStringLength(m);
    if len <= k {
      Pow10Monotone(len, k);
    } else {
      assert m >= 10;
      Pow10Monotone(k, len - 1);
    }
  }

  lemma {:induction false} DigitCountOfDigits(d: string)
    requires forall i :: 0 <= i < |d| ==> IsDigit(d[i])
    ensures DigitCount(d) == |d|
  {
    if |d| > 0 {
      DigitCountOfDigits(d[..|d| - 1]);
    }
  }

  lemma StripNoSpace(s: string)
    requires |s| > 0 && !IsSpace(s[0]) && !IsSpace(s[|s| - 1])
    ensures Strip(s) == s
  {
  }

  lemma DigitRunIsGroups(d: string)
    requires |d| > 0 && forall i :: 0 <= i < |d| ==> IsDigit(d[i])
    ensures IsDigitGroups(d)
  {
  }

  /** A non-empty run of digits reads as its value, unless it is longer
      than MaxStrDigits. */
  lemma ParseDigits(d: string)
    requires |d| > 0 && forall i :: 0 <= i < |d| ==> IsDigit(d[i])
    ensures ParseInt(d) == if |d| <= MaxStrDigits then Some(DigitsValue(d)) else None
  {
    assert IsDigit(d[0]) && IsDigit(d[|d| - 1]);
    StripNoSpace(d);
    ParseStrippedDigits(d);
  }

  lemma ParseStrippedDigits(d: string)
    requires |d| > 0 && forall i :: 0 <= i < |d| ==> IsDigit(d[i])
    ensures ParseStripped(d) == if |d| <= MaxStrDigits then Some(DigitsValue(d)) else None
  {
    assert IsDigit(d[0]);
    ReadDigitRun(d);
  }

  lemma ReadDigitRun(d: string)
    requires |d| > 0 && forall i :: 0 <= i < |d| ==> IsDigit(d[i])
    ensures ReadDigits(d) == if |d| <= MaxStrDigits then Some(DigitsValue(d)) else None
  {
    DigitRunIsGroups(d);
    DigitCountOfDigits(d);
  }

  /** A leading minus sign negates whatever the digits read as. */
  lemma ParseStrippedMinus(t: string)
    requires |t| > 0 && t[0] == '-'
    ensures ParseStripped(t) == if ReadDigits(t[1..]).Some? then Some(-(ReadDigits(t[1..]).value as int)) else None
  {
  }

  lemma ParseStrippedNegative(d: string)
    requires |d| > 0 && forall i :: 0 <= i < |d| ==> IsDigit(d[i])
    ensures ParseStripped("-" + d) == if |d| <= MaxStrDigits then Some(-(DigitsValue(d) as int)) else None
  {
    var t := "-" + d;
    assert t[0] == '-' && t[1..] == d;
    ParseStrippedMinus(t);
    ReadDigitRun(d);
  }

  lemma StripSigned(d: string)
    requires |d| > 0 && IsDigit(d[|d| - 1])
    ensures Strip("-" + d) == "-" + d
  {
    var s := "-" + d;
    assert s[|s| - 1] == d[|d| - 1];
    StripNoSpace(s);
  }

  /** A minus sign before a non-empty run of digits negates its value. */
  lemma ParseNegative(d: string)
    requires |d| > 0 && forall i :: 0 <= i < |d| ==> IsDigit(d[i])
    ensures ParseInt("-" + d) == if |d| <= MaxStrDigits then Some(-(DigitsValue(d) as int)) else None
  {
    ParseStrippedNegative(d);
    StripSigned(d);
  }

  /** Round trip: `int(str(n)) == n` for every integer of at most
      MaxStrDigits digits, and `int()` refuses the text of any longer one. */
  lemma ParseIntRoundTrip(n: int)
    ensures -Pow10(MaxStrDigits) < n < Pow10(MaxStrDigits) ==> ParseInt(IntToString(n)) == Some(n)
    ensures n <= -Pow10(MaxStrDigits) || Pow10(MaxStrDigits) <= n ==> ParseInt(IntToString(n)) == None
  {
    var m: nat := if n < 0 then -n else n;
    NatToStringValue(m);
    NatToStringFits(m, MaxStrDigits);
    if n < 0 {
      ParseNegative(NatToString(m));
    } else {
      ParseDigits(NatToString(m));
    }
  }

  /** A text without any decimal digit is never a number, so `int()` raises. */
  lemma ParseIntNeedsDigit(s: string)
    requires forall j :: 0 <= j < |s| ==> !IsDigit(s[j])
    ensures ParseInt(s) == None
  {
    var t := Strip(s);
    if |t| > 1 {
      assert !IsDigit(t[1]);
    }
    if |t| > 0 {
      assert !IsDigit(t[0]);
    }
  }
}

=== FILE: pystr.dfy ===
/** The Python string operations the core relies on: `startswith`,
    `split(sep)`, `sep.join`, and ASCII `lower()`. */
module PyStr {

  /** `s.startswith(prefix)`. */
  predicate StartsWith(s: string, prefix: string) {
    |prefix| <= |s| && s[..|prefix|] == prefix
  }

  predicate EndsWith(s: string, suffix: string) {
    |suffix| <= |s| && s[|s| - |suffix|..] == suffix
  }

  /** `sep` occurs in `s` starting at index `i`. */
  predicate OccursAt(s: string, sep: string, i: int) {
    0 <= i && i + |sep| <= |s| && s[i..i + |sep|] == sep
  }

  predicate Contains(s: string, sep: string) {
    exists i :: 0 <= i <= |s| && OccursAt(s, sep, i)
  }

  /** A text that does not contain the one-character separator `[c]` has
      no `c` at any index. */
  lemma NoCharAt(t: string, c: char)
    requires !Contains(t, [c])
    ensures forall k :: 0 <= k < |t| ==> t[k] != c
  {
    forall k | 0 <= k < |t|
      ensures t[k] != c
    {
      assert t[k..k + 1] == [t[k]];
      assert !OccursAt(t, [c], k);
    }
  }

  lemma OccursShift(s: string, sep: string)
    requires |s| > 0
    ensures forall i :: 1 <= i ==> (OccursAt(s, sep, i) <==> OccursAt(s[1..], sep, i - 1))
  {
    forall i | 1 <= i
      ensures OccursAt(s, sep, i) <==> OccursAt(s[1..], sep, i - 1)
    {
      if i + |sep| <= |s| {
        assert s[1..][i - 1..i - 1 + |sep|] == s[i..i + |sep|];
      }
    }
  }

  /** `s.find(sep)`: the first index where `sep` occurs, or -1. */
  function Find(s: string, sep: string): (r: int)
    requires |sep| > 0
    ensures -1 <= r <= |s|
    ensures r >= 0 ==> OccursAt(s, sep, r)
    ensures r >= 0 ==> forall j :: 0 <= j < r ==> !OccursAt(s, sep, j)
    ensures r < 0 <==> !Contains(s, sep)
    decreases |s|
  {
    if |s| < |sep| then -1
    else if s[..|sep|] == sep then assert OccursAt(s, sep, 0); 0
    else
      OccursShift(s, sep);
      var k := Find(s[1..], sep);
      if k < 0 then -1 else assert OccursAt(s[1..], sep, k); k + 1
  }

  lemma PrefixHasNoEarlierOccurrence(s: string, sep: string, i: int)
    requires |sep| > 0
    requires 0 <= i <= |s|
    requires forall j :: 0 <= j < i ==> !OccursAt(s, sep, j)
    ensures !Contains(s[..i], sep)
  {
    if Contains(s[..i], sep) {
      var j :| 0 <= j <= i && OccursAt(s[..i], sep, j);
      assert 0 <= j && j + |sep| <= i;
      assert s[..i][j..j + |sep|] == s[j..j + |sep|];
      assert OccursAt(s, sep, j);
    }
  }

  /** `s.split(sep)` for a non-empty separator: the pieces between the
      successive non-overlapping occurrences, scanning left to right. */
  function Split(s: string, sep: string): (parts: seq<string>)
    requires |sep| > 0
    ensures |parts| >= 1
    ensures forall k :: 0 <= k < |parts| ==> !Contains(parts[k], sep)
    decreases |s|
  {
    var i := Find(s, sep);
    if i < 0 then [s]
    else
      PrefixHasNoEarlierOccurrence(s, sep, i);
      [s[..i]] + Split(s[i + |sep|..], sep)
  }

  /** `sep.join(parts)`. */
  function Join(parts: seq<string>, sep: string): string
    requires |parts| >= 1
  {
    if |parts| == 1 then parts[0] else parts[0] + sep + Join(parts[1..], sep)
  }

  /** Joining the pieces of a split gives back the original text. */
  lemma {:induction false} JoinSplit(s: string, sep: string)
    requires |sep| > 0
    ensures Join(Split(s, sep), sep) == s
    decreases |s|
  {
    var i := Find(s, sep);
    if i >= 0 {
      var rest := s[i + |sep|..];
      var parts := Split(s, sep);
      assert parts == [s[..i]] + Split(rest, sep);
      JoinSplit(rest, sep);
      assert parts[1..] == Split(rest, sep);
      assert Join(parts, sep) == s[..i] + sep + Join(Split(rest, sep), sep);
      assert s == s[..i] + sep + rest;
    }
  }

  lemma {:induction false} JoinLast(parts: seq<string>, sep: string)
    requires |parts| >= 2
    ensures Join(parts, sep) == Join(parts[..|parts| - 1], sep) + sep + parts[|parts| - 1]
  {
    if |parts| > 2 {
      JoinLast(parts[1..], sep);
      assert parts[1..][..|parts| - 2] == parts[..|parts| - 1][1..];
    }
  }

  /** `s.split(sep)[-1]`: the text after the last occurrence of `sep`. */
  function AfterLast(s: string, sep: string): string
    requires |sep| > 0
  {
    var parts := Split(s, sep);
    parts[|parts| - 1]
  }

  /** `AfterLast` is a suffix of its input free of the separator, and
      when the separator occurs at all, it occurs right before that suffix. */
  lemma AfterLastSpec(s: string, sep: string)
    requires |sep| > 0
    ensures !Contains(AfterLast(s, sep), sep)
    ensures EndsWith(s, AfterLast(s, sep))
    ensures Contains(s, sep) ==> OccursAt(s, sep, |s| - |AfterLast(s, sep)| - |sep|)
    ensures !Contains(s, sep) ==> AfterLast(s, sep) == s
  {
    var parts := Split(s, sep);
    var last := parts[|parts| - 1];
    JoinSplit(s, sep);
    if |parts| >= 2 {
      JoinLast(parts, sep);
      var front := Join(parts[..|parts| - 1], sep);
      assert s == front + sep + last;
      assert s[|front|..|front| + |sep|] == sep;
      assert OccursAt(s, sep, |front|);
    }
  }

  /** When `sep` starts with a character that occurs in neither `a` nor `b`,
      `(a + sep + b).split(sep)` is exactly `[a, b]`. */
  lemma SplitAround(a: string, sep: string, b: string)
    requires |sep| > 0
    requires forall j :: 0 <= j < |a| ==> a[j] != sep[0]
    requires forall j :: 0 <= j < |b| ==> b[j] != sep[0]
    ensures Split(a + sep + b, sep) == [a, b]
  {
    var s := a + sep + b;
    FindAround(a, sep, b);
    assert s[..|a|] == a;
    assert s[|a| + |sep|..] == b;
    NotContainsWithout(b, sep);
    assert Split(b, sep) == [b];
  }

  lemma FindAround(a: string, sep: string, b: string)
    requires |sep| > 0
    requires forall j :: 0 <= j < |a| ==> a[j] != sep[0]
    ensures Find(a + sep + b, sep) == |a|
  {
    var s := a + sep + b;
    assert s[|a|..|a| + |sep|] == sep;
    assert OccursAt(s, sep, |a|);
    forall j | 0 <= j < |a|
      ensures !OccursAt(s, sep, j)
    {
      assert s[j..j + |sep|][0] == s[j] == a[j];
    }
  }

  /** A text lacking the separator's first character does not contain it. */
  lemma NotContainsWithout(b: string, sep: string)
    requires |sep| > 0
    requires forall j :: 0 <= j < |b| ==> b[j] != sep[0]
    ensures !Contains(b, sep)
  {
    forall j | 0 <= j <= |b|
      ensures !OccursAt(b, sep, j)
    {
      if j + |sep| <= |b| {
        assert b[j..j + |sep|][0] == b[j];
      }
    }
  }

  function LowerChar(c: char): char {
    if 'A' <= c <= 'Z' then ((c as int) + 32) as char else c
  }

  /** `s.lower()` on ASCII letters; every other character is kept. */
  function Lower(s: string): (r: string)
    ensures |r| == |s|
    ensures forall i :: 0 <= i < |s| ==> r[i] == LowerChar(s[i])
  {
    seq(|s|, i requires 0 <= i < |s| => LowerChar(s[i]))
  }
}

=== FILE: recipe_writes.dfy ===
/** `RecipeCreateUpdateSerializer`: validation of the submitted recipe,
    `create`, `update` and `create_recipe_ingredient_amounts`.

    Each write runs as a sequence of separate statements with no enclosing
    transaction, so a failure part-way leaves the earlier statements'
    effects in the store; an `Outcome` carries the store after the request
    together with the response. */
module RecipeWrites {
  import opened Errors
  import opened Models

  /** One submitted `ingredients` entry: `{"id": ..., "amount": ...}`. */
  datatype IngredientEntry = IngredientEntry(id: int, amount: int)

  /** The payload of a POST: every field present. */
  datatype RecipeData = RecipeData(
    tags: seq<TagId>,
    ingredients: seq<IngredientEntry>,
    name: string,
    image: string,
    text: string,
    cookingTime: int)

  /** The payload of a PATCH: any field may be missing. */
  datatype RecipePatch = RecipePatch(
    tags: Option<seq<TagId>>,
    ingredients: Option<seq<IngredientEntry>>,
    name: Option<string>,
    image: Option<string>,
    text: Option<string>,
    cookingTime: Option<int>)

  /** The store after a request, and what the request answered. */
  datatype Outcome = Outcome(store: Store, response: Result<RecipeId>)

  /** The largest value of a PositiveSmallIntegerField. */
  const SmallIntMax: int := 32767

  // ---------------------------------------------------------------------
  // Field validation (`is_valid`)

  /** `cooking_time`: the model field's MinValueValidator and the
      positive-small-integer range. */
  predicate CookingTimeInRange(c: Constants, t: int) {
    0 <= t <= SmallIntMax && t >= c.minCookingTime
  }

  /** `tags`: every primary key names a stored tag. */
  predicate TagsExist(s: Store, tags: seq<TagId>) {
    forall i :: 0 <= i < |tags| ==> tags[i] in s.tags
  }

  /** The checks `is_valid` runs on the fields present: the tag keys, then
      the cooking time. The ingredient `amount` is a bare IntegerField and
      is not checked. DRF gathers every failing field into one
      ValidationError; the model names only the first failing field, tags
      before cooking time. */
  function ValidateFields(s: Store, c: Constants, tags: Option<seq<TagId>>, cookingTime: Option<int>): (r: Result<()>)
    ensures r.Ok? <==>
      (tags.Some? ==> TagsExist(s, tags.value)) && (cookingTime.Some? ==> CookingTimeInRange(c, cookingTime.value))
    ensures r.Err? ==> r.error.ValidationError?
  {
    if tags.Some? && !TagsExist(s, tags.value) then Err(ValidationError("tags"))
    else if cookingTime.Some? && !CookingTimeInRange(c, cookingTime.value) then Err(ValidationError("cooking_time"))
    else Ok(())
  }

  /** The check the ingredient amounts evidently should have had: each at
      least MIN_INGREDIENT_AMOUNT. */
  function ValidateAmounts(c: Constants, entries: seq<IngredientEntry>): (r: Result<()>)
    ensures r.Ok? <==> forall i :: 0 <= i < |entries| ==> entries[i].amount >= c.minIngredientAmount
    ensures r.Err? ==> r.error == ValidationError("amount")
  {
    if exists i :: 0 <= i < |entries| && entries[i].amount < c.minIngredientAmount
    then Err(ValidationError("amount"))
    else Ok(())
  }

  // ---------------------------------------------------------------------
  // create_recipe_ingredient_amounts

  /** Some entry names no stored ingredient: `get_object_or_404` raises. */
  predicate HasUnknown(s: Store, entries: seq<IngredientEntry>) {
    exists i :: 0 <= i < |entries| && (entries[i].id < 0 || entries[i].id !in s.ingredients)
  }

  /** The single INSERT of `bulk_create` violates a database constraint:
      two entries for the same ingredient or one already stored for the
      recipe (unique_ingredient_recipe), or a negative amount (the CHECK of
      a positive integer column). */
  predicate Conflicts(s: Store, r: RecipeId, entries: seq<IngredientEntry>) {
    || (exists i, j :: 0 <= i < j < |entries| && entries[i].id == entries[j].id)
    || (exists i, k :: 0 <= i < |entries| && 0 <= k < |s.lineItems| &&
          s.lineItems[k].recipe == r && s.lineItems[k].ingredient == entries[i].id)
    || (exists i :: 0 <= i < |entries| && entries[i].amount < 0)
  }

  /** The line items the entries describe for recipe `r`, in entry order. */
  function NewItems(r: RecipeId, entries: seq<IngredientEntry>): (items: seq<LineItem>)
    requires forall i :: 0 <= i < |entries| ==> entries[i].id >= 0
    ensures |items| == |entries|
  {
    seq(|entries|, i requires 0 <= i < |entries| => LineItem(r, entries[i].id, entries[i].amount))
  }

  /** `create_recipe_ingredient_amounts`: look every ingredient up (404 on
      the first unknown one, before anything is written), then insert one
      line item per entry in a single statement. */
  function CreateLineItems(s: Store, r: RecipeId, entries: seq<IngredientEntry>): (res: Result<Store>)
    ensures res.Err? && res.error == NotFound <==> HasUnknown(s, entries)
    ensures res.Err? && res.error.IntegrityError? <==> !HasUnknown(s, entries) && Conflicts(s, r, entries)
    ensures res.Err? ==> res.error == NotFound || res.error.IntegrityError?
    ensures res.Ok? ==>
      && |res.value.lineItems| == |s.lineItems| + |entries|
      && res.value.lineItems[..|s.lineItems|] == s.lineItems
      && (forall i :: 0 <= i < |entries| ==>
            res.value.lineItems[|s.lineItems| + i] == LineItem(r, entries[i].id, entries[i].amount))
      && res.value.(lineItems := s.lineItems) == s
  {
    if HasUnknown(s, entries) then Err(NotFound)
    else if Conflicts(s, r, entries) then Err(IntegrityError("recipes_recipeingredientamount"))
    else Ok(s.(lineItems := s.lineItems + NewItems(r, entries)))
  }

  // ---------------------------------------------------------------------
  // create and update

  /** `create`: is_valid, then `Recipe.objects.create` (the id comes from the
      database as `freshId`, the author from the request), `tags.set`, and
      the line items. A failure of the last step leaves the recipe stored
      with its tags and no line items. */
  function CreateRecipe(s: Store, c: Constants, author: UserId, freshId: RecipeId, d: RecipeData): (o: Outcome)
    requires freshId !in s.recipes
    ensures o.response.Ok? ==> o.response.value == freshId
    ensures ValidateFields(s, c, Some(d.tags), Some(d.cookingTime)).Err? ==>
      o == Outcome(s, Err(ValidateFields(s, c, Some(d.tags), Some(d.cookingTime)).error))
    ensures ValidateFields(s, c, Some(d.tags), Some(d.cookingTime)).Err? ==> o == Outcome(s, Err(ValidationError("tags"))) || o == Outcome(s, Err(ValidationError("cooking_time")))
    ensures ValidateFields(s, c, Some(d.tags), Some(d.cookingTime)).Ok? && HasUnknown(s, d.ingredients) ==>
      o.response == Err(NotFound)
    ensures ValidateFields(s, c, Some(d.tags), Some(d.cookingTime)).Ok? && !HasUnknown(s, d.ingredients) && Conflicts(s, freshId, d.ingredients) ==>
      o.response.Err? && o.response.error.IntegrityError?
    ensures ValidateFields(s, c, Some(d.tags), Some(d.cookingTime)).Ok? ==>
      && freshId in o.store.recipes
      && o.store.recipes[freshId] == Recipe(author, Elements(d.tags), d.name, d.image, d.text, d.cookingTime)
      && (o.response.Err? <==> HasUnknown(s, d.ingredients) || Conflicts(s, freshId, d.ingredients))
    ensures ValidateFields(s, c, Some(d.tags), Some(d.cookingTime)).Ok? && o.response.Err? ==>
      o.store == s.(recipes := s.recipes[freshId := Recipe(author, Elements(d.tags), d.name, d.image, d.text, d.cookingTime)])
    ensures o.response.Ok? ==>
      && (forall i :: 0 <= i < |d.ingredients| ==> d.ingredients[i].id >= 0)
      && o.store == s.(recipes := s.recipes[freshId := Recipe(author, Elements(d.tags), d.name, d.image, d.text, d.cookingTime)],
                       lineItems := s.lineItems + NewItems(freshId, d.ingredients))
  {
    match ValidateFields(s, c, Some(d.tags), Some(d.cookingTime))
    case Err(e) => Outcome(s, Err(e))
    case Ok(_) =>
      var stored := s.(recipes := s.recipes[freshId := Recipe(author, Elements(d.tags), d.name, d.image, d.text, d.cookingTime)]);
      assert stored.ingredients == s.ingredients && stored.lineItems == s.lineItems;
      match CreateLineItems(stored, freshId, d.ingredients)
      case Err(e) => Outcome(stored, Err(e))
      case Ok(t) => Outcome(t, Ok(freshId))
  }

  /** The line items of every recipe other than `r`, in order. */
  function DropItemsOf(items: seq<LineItem>, r: RecipeId): (out: seq<LineItem>)
    ensures forall li :: li in out <==> li in items && li.recipe != r
  {
    if items == [] then []
    else
      var front := DropItemsOf(items[..|items| - 1], r);
      var last := items[|items| - 1];
      assert items == items[..|items| - 1] + [last];
      if last.recipe != r then front + [last] else front
  }

  /** `update`: is_valid on the fields sent; `pop('tags')` and
      `pop('recipe_ingredient_amounts')` raise KeyError when either is
      missing; then the tags are replaced and the recipe's line items
      cleared, each written at once, the new line items created, and only
      then the scalar fields saved, each keeping its value when not sent.
      `id` not naming a recipe is the view's 404. */
  function UpdateRecipe(s: Store, c: Constants, id: RecipeId, p: RecipePatch): (o: Outcome)
    ensures id !in s.recipes ==> o == Outcome(s, Err(NotFound))
    ensures o.response.Ok? ==> o.response.value == id
    ensures id in s.recipes && ValidateFields(s, c, p.tags, p.cookingTime).Err? ==>
      o == Outcome(s, Err(ValidateFields(s, c, p.tags, p.cookingTime).error))
    ensures id in s.recipes && ValidateFields(s, c, p.tags, p.cookingTime).Ok? && p.tags.None? ==>
      o == Outcome(s, Err(KeyError("tags")))
    ensures id in s.recipes && ValidateFields(s, c, p.tags, p.cookingTime).Ok? && p.tags.Some? && p.ingredients.None? ==>
      o == Outcome(s, Err(KeyError("recipe_ingredient_amounts")))
    ensures id in s.recipes && ValidateFields(s, c, p.tags, p.cookingTime).Ok? && p.tags.Some? && p.ingredients.Some? ==>
      && (o.response.Ok? <==> CreateLineItems(Cleared(s, id, p.tags.value), id, p.ingredients.value).Ok?)
      && (o.response.Err? ==> o.store == Cleared(s, id, p.tags.value))
      && (o.response.Err? ==> o.response.error == CreateLineItems(Cleared(s, id, p.tags.value), id, p.ingredients.value).error)
  {
    if id !in s.recipes then Outcome(s, Err(NotFound))
    else match ValidateFields(s, c, p.tags, p.cookingTime)
      case Err(e) => Outcome(s, Err(e))
      case Ok(_) =>
        if p.tags.None? then Outcome(s, Err(KeyError("tags")))
        else if p.ingredients.None? then Outcome(s, Err(KeyError("recipe_ingredient_amounts")))
        else
          var cleared := Cleared(s, id, p.tags.value);
          match CreateLineItems(cleared, id, p.ingredients.value)
          case Err(e) => Outcome(cleared, Err(e))
          case Ok(t) => Outcome(t.(recipes := t.recipes[id := Saved(s.recipes[id], p)]), Ok(id))
  }

  /** The store once `tags.clear(); tags.set(...)` and `ingredients.clear()`
      have run: the new tag set and no line items for `id`. */
  function Cleared(s: Store, id: RecipeId, tags: seq<TagId>): Store
    requires id in s.recipes
  {
    s.(recipes := s.recipes[id := s.recipes[id].(tags := Elements(tags))],
       lineItems := DropItemsOf(s.lineItems, id))
  }

  /** The row `instance.save()` writes: each scalar field sent replaces the
      stored one, and the tag set is the submitted one. */
  function Saved(before: Recipe, p: RecipePatch): Recipe
    requires p.tags.Some?
  {
    before.(
      tags := Elements(p.tags.value),
      name := if p.name.Some? then p.name.value else before.name,
      image := if p.image.Some? then p.image.value else before.image,
      text := if p.text.Some? then p.text.value else before.text,
      cookingTime := if p.cookingTime.Some? then p.cookingTime.value else before.cookingTime)
  }

  /** The store a successful PATCH leaves behind. */
  lemma UpdateOkStore(s: Store, c: Constants, id: RecipeId, p: RecipePatch)
    requires UpdateRecipe(s, c, id, p).response.Ok?
    ensures id in s.recipes && p.tags.Some? && p.ingredients.Some?
    ensures ValidateFields(s, c, p.tags, p.cookingTime).Ok?
    ensures forall i :: 0 <= i < |p.ingredients.value| ==> p.ingredients.value[i].id >= 0
    ensures CreateLineItems(Cleared(s, id, p.tags.value), id, p.ingredients.value).Ok?
    ensures UpdateRecipe(s, c, id, p).store ==
      s.(recipes := s.recipes[id := Saved(s.recipes[id], p)],
         lineItems := DropItemsOf(s.lineItems, id) + NewItems(id, p.ingredients.value))
  {
    var o := UpdateRecipe(s, c, id, p);
    assert id in s.recipes;
    assert ValidateFields(s, c, p.tags, p.cookingTime).Ok?;
    assert p.tags.Some? && p.ingredients.Some?;
    var entries := p.ingredients.value;
    var cleared := Cleared(s, id, p.tags.value);
    var res := CreateLineItems(cleared, id, entries);
    assert res.Ok?;
    assert !HasUnknown(cleared, entries);
    forall i | 0 <= i < |entries|
      ensures entries[i].id >= 0
    {
      assert !(entries[i].id < 0 || entries[i].id !in cleared.ingredients);
    }
    assert res.value == cleared.(lineItems := cleared.lineItems + NewItems(id, entries));
    assert o.store == res.value.(recipes := res.value.recipes[id := Saved(s.recipes[id], p)]);
  }

  // ---------------------------------------------------------------------
  // The line items of a recipe after a write

  lemma {:induction false} ItemsOfConcat(a: seq<LineItem>, b: seq<LineItem>, r: RecipeId)
    ensures ItemsOf(a + b, r) == ItemsOf(a, r) + ItemsOf(b, r)
    decreases |b|
  {
    if b == [] {
      assert a + b == a;
    } else {
      var front := b[..|b| - 1];
      var last := b[|b| - 1];
      assert (a + b)[..|a + b| - 1] == a + front;
      assert (a + b)[|a + b| - 1] == last;
      ItemsOfConcat(a, front, r);
    }
  }

  lemma {:induction false} ItemsOfDrop(items: seq<LineItem>, r: RecipeId, x: RecipeId)
    ensures ItemsOf(DropItemsOf(items, r), x) == if x == r then [] else ItemsOf(items, x)
  {
    if items != [] {
      var front := items[..|items| - 1];
      var last := items[|items| - 1];
      ItemsOfDrop(front, r, x);
      if last.recipe != r {
        ItemsOfConcat(DropItemsOf(front, r), [last], x);
        assert [last][..0] == [];
      }
    }
  }

  /** Items that all belong to recipe `r` are all of `r`'s items and none
      of any other recipe's. */
  lemma {:induction false} ItemsOfOneRecipe(items: seq<LineItem>, r: RecipeId, x: RecipeId)
    requires forall i :: 0 <= i < |items| ==> items[i].recipe == r
    ensures ItemsOf(items, x) == if x == r then items else []
  {
    if items != [] {
      var front := items[..|items| - 1];
      assert forall i :: 0 <= i < |front| ==> front[i] == items[i];
      ItemsOfOneRecipe(front, r, x);
      assert items == front + [items[|items| - 1]];
    }
  }

  lemma ItemsOfNew(r: RecipeId, entries: seq<IngredientEntry>, x: RecipeId)
    requires forall i :: 0 <= i < |entries| ==> entries[i].id >= 0
    ensures ItemsOf(NewItems(r, entries), x) == if x == r then NewItems(r, entries) else []
  {
    ItemsOfOneRecipe(NewItems(r, entries), r, x);
  }

  /** A successful PATCH replaces the recipe's tag set and line items with
      exactly the submitted ones, keeps every scalar field that was not
      sent, leaves every other recipe's line items as they were, and
      touches nothing else. */
  lemma UpdateReplacesContent(s: Store, c: Constants, id: RecipeId, p: RecipePatch)
    requires UpdateRecipe(s, c, id, p).response.Ok?
    ensures p.tags.Some? && p.ingredients.Some?
    ensures forall i :: 0 <= i < |p.ingredients.value| ==> p.ingredients.value[i].id >= 0
    ensures var t := UpdateRecipe(s, c, id, p).store;
      && id in s.recipes && id in t.recipes
      && t.recipes[id].tags == Elements(p.tags.value)
      && ItemsOf(t.lineItems, id) == NewItems(id, p.ingredients.value)
      && (forall x :: x != id ==> ItemsOf(t.lineItems, x) == ItemsOf(s.lineItems, x))
      && t.recipes[id].author == s.recipes[id].author
      && t.recipes[id].name == (if p.name.Some? then p.name.value else s.recipes[id].name)
      && t.recipes[id].image == (if p.image.Some? then p.image.value else s.recipes[id].image)
      && t.recipes[id].text == (if p.text.Some? then p.text.value else s.recipes[id].text)
      && t.recipes[id].cookingTime == (if p.cookingTime.Some? then p.cookingTime.value else s.recipes[id].cookingTime)
      && t.(recipes := s.recipes, lineItems := s.lineItems) == s
      && t.recipes.Keys == s.recipes.Keys
      && (forall x :: x in s.recipes && x != id ==> t.recipes[x] == s.recipes[x])
  {
    UpdateOkStore(s, c, id, p);
    var entries := p.ingredients.value;
    var dropped := DropItemsOf(s.lineItems, id);
    var t := UpdateRecipe(s, c, id, p).store;
    forall x
      ensures ItemsOf(t.lineItems, x) == if x == id then NewItems(id, entries) else ItemsOf(s.lineItems, x)
    {
      ItemsOfConcat(dropped, NewItems(id, entries), x);
      ItemsOfDrop(s.lineItems, id, x);
      ItemsOfNew(id, entries, x);
    }
  }

  // ---------------------------------------------------------------------
  // Store invariants under the writes

  /** Two line items for the same (recipe, ingredient). */
  predicate Clash(x: LineItem, y: LineItem) {
    x.recipe == y.recipe && x.ingredient == y.ingredient
  }

  lemma UniqueConcat(a: seq<LineItem>, b: seq<LineItem>)
    requires UniqueLineItems(a) && UniqueLineItems(b)
    requires forall i, j :: 0 <= i < |a| && 0 <= j < |b| ==> !Clash(a[i], b[j])
    ensures UniqueLineItems(a + b)
  {
    var ab := a + b;
    forall i, j | 0 <= i < j < |ab|
      ensures ab[i].recipe != ab[j].recipe || ab[i].ingredient != ab[j].ingredient
    {
      if j < |a| {
        assert ab[i] == a[i] && ab[j] == a[j];
      } else if i < |a| {
        assert ab[i] == a[i] && ab[j] == b[j - |a|];
        assert !Clash(a[i], b[j - |a|]);
      } else {
        assert ab[i] == b[i - |a|] && ab[j] == b[j - |a|];
      }
    }
  }

  lemma {:induction false} DropKeepsUnique(items: seq<LineItem>, r: RecipeId)
    requires UniqueLineItems(items)
    ensures UniqueLineItems(DropItemsOf(items, r))
  {
    if items != [] {
      var front := items[..|items| - 1];
      var last := items[|items| - 1];
      assert UniqueLineItems(front) by {
        forall i, j | 0 <= i < j < |front|
          ensures front[i].recipe != front[j].recipe || front[i].ingredient != front[j].ingredient
        {
          assert front[i] == items[i] && front[j] == items[j];
        }
      }
      DropKeepsUnique(front, r);
      if last.recipe != r {
        var d := DropItemsOf(front, r);
        forall i | 0 <= i < |d|
          ensures !Clash(d[i], last)
        {
          assert d[i] in front;
          var k :| 0 <= k < |front| && front[k] == d[i];
          assert items[k] == d[i] && items[|items| - 1] == last;
        }
        UniqueConcat(d, [last]);
      }
    }
  }

  lemma NewItemsUnique(r: RecipeId, entries: seq<IngredientEntry>)
    requires forall i :: 0 <= i < |entries| ==> entries[i].id >= 0
    requires forall i, j :: 0 <= i < j < |entries| ==> entries[i].id != entries[j].id
    ensures UniqueLineItems(NewItems(r, entries))
  {
  }

  /** No entry names an unknown ingredient: every id is a stored one. */
  lemma KnownEntries(s: Store, entries: seq<IngredientEntry>)
    requires !HasUnknown(s, entries)
    ensures forall i :: 0 <= i < |entries| ==> entries[i].id >= 0 && entries[i].id in s.ingredients
  {
    forall i | 0 <= i < |entries|
      ensures entries[i].id >= 0 && entries[i].id in s.ingredients
    {
      assert !(entries[i].id < 0 || entries[i].id !in s.ingredients);
    }
  }

  /** Entries that do not conflict append line items that keep the
      (recipe, ingredient) pairs unique. */
  lemma AppendKeepsUnique(s: Store, r: RecipeId, entries: seq<IngredientEntry>)
    requires UniqueLineItems(s.lineItems)
    requires forall i :: 0 <= i < |entries| ==> entries[i].id >= 0
    requires !Conflicts(s, r, entries)
    ensures UniqueLineItems(s.lineItems + NewItems(r, entries))
  {
    var added := NewItems(r, entries);
    forall i, j | 0 <= i < j < |entries|
      ensures entries[i].id != entries[j].id
    {
    }
    NewItemsUnique(r, entries);
    forall i, j | 0 <= i < |s.lineItems| && 0 <= j < |added|
      ensures !Clash(s.lineItems[i], added[j])
    {
      assert added[j] == LineItem(r, entries[j].id, entries[j].amount);
    }
    UniqueConcat(s.lineItems, added);
  }

  /** Appending the line items of a successful `create_recipe_ingredient_amounts`
      for a stored recipe keeps every invariant when the amounts are in range. */
  lemma CreateLineItemsKeepsValid(s: Store, c: Constants, r: RecipeId, entries: seq<IngredientEntry>)
    requires Valid(s, c)
    requires r in s.recipes
    requires forall i :: 0 <= i < |entries| ==> entries[i].amount >= c.minIngredientAmount
    requires CreateLineItems(s, r, entries).Ok?
    ensures Valid(CreateLineItems(s, r, entries).value, c)
  {
    var t := CreateLineItems(s, r, entries).value;
    KnownEntries(s, entries);
    var added := NewItems(r, entries);
    assert t.lineItems == s.lineItems + added;
    AppendKeepsUnique(s, r, entries);
    forall li | li in t.lineItems
      ensures li.recipe in t.recipes && li.ingredient in t.ingredients && li.amount >= c.minIngredientAmount
    {
      if li !in s.lineItems {
        var k :| 0 <= k < |t.lineItems| && t.lineItems[k] == li;
        assert k >= |s.lineItems|;
        assert li == added[k - |s.lineItems|];
      }
    }
  }

  /** `create` with the amount check run first. */
  function CreateRecipeChecked(s: Store, c: Constants, author: UserId, freshId: RecipeId, d: RecipeData): (o: Outcome)
    requires freshId !in s.recipes
    ensures ValidateAmounts(c, d.ingredients).Err? ==> o == Outcome(s, Err(ValidationError("amount")))
    ensures ValidateAmounts(c, d.ingredients).Ok? ==> o == CreateRecipe(s, c, author, freshId, d)
  {
    match ValidateAmounts(c, d.ingredients)
    case Err(e) => Outcome(s, Err(e))
    case Ok(_) => CreateRecipe(s, c, author, freshId, d)
  }

  /** `update` with the amount check run first. */
  function UpdateRecipeChecked(s: Store, c: Constants, id: RecipeId, p: RecipePatch): (o: Outcome)
    ensures p.ingredients.Some? && ValidateAmounts(c, p.ingredients.value).Err? ==>
      o == Outcome(s, Err(ValidationError("amount")))
    ensures p.ingredients.None? || ValidateAmounts(c, p.ingredients.value).Ok? ==> o == UpdateRecipe(s, c, id, p)
  {
    if p.ingredients.Some? && ValidateAmounts(c, p.ingredients.value).Err? then Outcome(s, Err(ValidationError("amount")))
    else UpdateRecipe(s, c, id, p)
  }

  /** With the amount check, creating a recipe keeps every store invariant,
      whether the request succeeds, fails validation, or fails part-way. */
  lemma CreateRecipeCheckedKeepsValid(s: Store, c: Constants, author: UserId, freshId: RecipeId, d: RecipeData)
    requires Valid(s, c)
    requires author in s.users
    requires freshId !in s.recipes
    ensures Valid(CreateRecipeChecked(s, c, author, freshId, d).store, c)
  {
    if ValidateAmounts(c, d.ingredients).Ok? && ValidateFields(s, c, Some(d.tags), Some(d.cookingTime)).Ok? {
      var stored := s.(recipes := s.recipes[freshId := Recipe(author, Elements(d.tags), d.name, d.image, d.text, d.cookingTime)]);
      assert Valid(stored, c);
      if CreateLineItems(stored, freshId, d.ingredients).Ok? {
        CreateLineItemsKeepsValid(stored, c, freshId, d.ingredients);
      }
    }
  }

  /** Clearing a recipe's tags and line items keeps every invariant when the
      new tags exist. */
  lemma ClearedKeepsValid(s: Store, c: Constants, id: RecipeId, tags: seq<TagId>)
    requires Valid(s, c)
    requires id in s.recipes
    requires TagsExist(s, tags)
    ensures Valid(Cleared(s, id, tags), c)
  {
    DropKeepsUnique(s.lineItems, id);
  }

  /** A successful update whose amounts are in range keeps every invariant. */
  lemma UpdateOkKeepsValid(s: Store, c: Constants, id: RecipeId, p: RecipePatch)
    requires Valid(s, c)
    requires UpdateRecipe(s, c, id, p).response.Ok?
    requires p.ingredients.Some? && ValidateAmounts(c, p.ingredients.value).Ok?
    ensures Valid(UpdateRecipe(s, c, id, p).store, c)
  {
    UpdateOkStore(s, c, id, p);
    var cleared := Cleared(s, id, p.tags.value);
    ClearedKeepsValid(s, c, id, p.tags.value);
    CreateLineItemsKeepsValid(cleared, c, id, p.ingredients.value);
    var t := CreateLineItems(cleared, id, p.ingredients.value).value;
    assert UpdateRecipe(s, c, id, p).store == t.(recipes := t.recipes[id := Saved(s.recipes[id], p)]);
  }

  /** With the amount check, updating a recipe keeps every store invariant,
      whether the request succeeds or stops part-way. */
  lemma UpdateRecipeCheckedKeepsValid(s: Store, c: Constants, id: RecipeId, p: RecipePatch)
    requires Valid(s, c)
    ensures Valid(UpdateRecipeChecked(s, c, id, p).store, c)
  {
    if id in s.recipes && p.tags.Some? && p.ingredients.Some?
      && ValidateAmounts(c, p.ingredients.value).Ok? && ValidateFields(s, c, p.tags, p.cookingTime).Ok? {
      var o := UpdateRecipe(s, c, id, p);
      if o.response.Ok? {
        UpdateOkKeepsValid(s, c, id, p);
      } else {
        ClearedKeepsValid(s, c, id, p.tags.value);
      }
    }
  }

  /** When the fields are valid and the line items neither name an unknown
      ingredient nor conflict, `create` answers with the new id and appends
      one line item per entry. */
  lemma CreateSucceeds(s: Store, c: Constants, author: UserId, freshId: RecipeId, d: RecipeData)
    requires freshId !in s.recipes
    requires ValidateFields(s, c, Some(d.tags), Some(d.cookingTime)).Ok?
    requires !HasUnknown(s, d.ingredients) && !Conflicts(s, freshId, d.ingredients)
    ensures forall i :: 0 <= i < |d.ingredients| ==> d.ingredients[i].id >= 0
    ensures CreateRecipe(s, c, author, freshId, d).response == Ok(freshId)
    ensures CreateRecipe(s, c, author, freshId, d).store.lineItems == s.lineItems + NewItems(freshId, d.ingredients)
  {
    var o := CreateRecipe(s, c, author, freshId, d);
    assert o.response.Ok?;
  }

  /** A store with one line item below MIN_INGREDIENT_AMOUNT breaks the
      invariant. */
  lemma LowAmountBreaksValid(s: Store, c: Constants, k: int)
    requires 0 <= k < |s.lineItems| && s.lineItems[k].amount < c.minIngredientAmount
    ensures !Valid(s, c)
  {
    assert s.lineItems[k] in s.lineItems;
  }

  /** One user, one ingredient measured in `unit`, and nothing else. */
  function SaltStore(unit: string): Store {
    Store(map[0 := NewUser("a@b.c", "cook", "A", "B")], map[0 := Ingredient("salt", unit)],
          map[], map[], [], {}, {}, {})
  }

  lemma SaltStoreValid(c: Constants, unit: string)
    requires unit in c.unitChoices
    ensures Valid(SaltStore(unit), c)
  {
  }

  /** As written, a zero amount passes validation and `bulk_create` (which
      runs no model validators) and is stored, breaking the
      MIN_INGREDIENT_AMOUNT rule whenever that minimum is positive. */
  lemma ZeroAmountAccepted(c: Constants, unit: string)
    requires c.minIngredientAmount > 0
    requires unit in c.unitChoices
    requires c.minCookingTime <= SmallIntMax
    ensures var t := if c.minCookingTime > 0 then c.minCookingTime else 0;
      var o := CreateRecipe(SaltStore(unit), c, 0, 0, RecipeData([], [IngredientEntry(0, 0)], "soup", "img.png", "", t));
      && Valid(SaltStore(unit), c)
      && o.response == Ok(0)
      && !Valid(o.store, c)
  {
    var s := SaltStore(unit);
    SaltStoreValid(c, unit);
    var t := if c.minCookingTime > 0 then c.minCookingTime else 0;
    var d := RecipeData([], [IngredientEntry(0, 0)], "soup", "img.png", "", t);
    assert ValidateFields(s, c, Some(d.tags), Some(d.cookingTime)).Ok?;
    assert !HasUnknown(s, d.ingredients);
    assert !Conflicts(s, 0, d.ingredients);
    CreateSucceeds(s, c, 0, 0, d);
    var o := CreateRecipe(s, c, 0, 0, d);
    assert o.store.lineItems[0] == LineItem(0, 0, 0);
    LowAmountBreaksValid(o.store, c, 0);
  }
}

=== FILE: relations.dfy ===
/** The favourite, shopping-cart and subscription toggles of the serializers.
    Each relation is a set of pairs, so `add` is an insertion that tolerates
    an existing pair and `remove` a deletion that tolerates a missing one;
    both always answer True. */
module Relations {
  import opened Errors
  import opened Models
  import Serializers

  // ---------------------------------------------------------------------
  // Set-of-pairs updates, shared by the three relations

  /** `manager.add(b)` on the relation side of `a`. */
  function Insert(rel: set<(nat, nat)>, a: nat, b: nat): (r: set<(nat, nat)>)
    ensures (a, b) in r
    ensures forall p :: p != (a, b) ==> (p in r <==> p in rel)
  {
    rel + {(a, b)}
  }

  /** `manager.remove(b)` on the relation side of `a`. */
  function Delete(rel: set<(nat, nat)>, a: nat, b: nat): (r: set<(nat, nat)>)
    ensures (a, b) !in r
    ensures forall p :: p != (a, b) ==> (p in r <==> p in rel)
  {
    rel - {(a, b)}
  }

  /** Removing a pair that was just added restores the relation, adding is
      idempotent, and removing after adding is the same as removing. */
  lemma InsertDeleteLaws(rel: set<(nat, nat)>, a: nat, b: nat)
    ensures (a, b) !in rel ==> Delete(Insert(rel, a, b), a, b) == rel
    ensures (a, b) in rel ==> Insert(rel, a, b) == rel
    ensures Insert(Insert(rel, a, b), a, b) == Insert(rel, a, b)
    ensures Delete(Insert(rel, a, b), a, b) == Delete(rel, a, b)
    ensures Insert(Delete(rel, a, b), a, b) == Insert(rel, a, b)
  {
  }

  // ---------------------------------------------------------------------
  // RecipeFavoritesSerializer, RecipeShoppingCartSerializer

  /** `add_to_favorites`: `user.favorite_recipes.add(instance)`. */
  function AddToFavorites(s: Store, u: UserId, r: RecipeId): (res: (Store, bool))
    ensures res.1
    ensures (u, r) in res.0.favorites
    ensures forall p :: p != (u, r) ==> (p in res.0.favorites <==> p in s.favorites)
    ensures res.0.(favorites := s.favorites) == s
  {
    (s.(favorites := Insert(s.favorites, u, r)), true)
  }

  /** `remove_from_favorites`: `user.favorite_recipes.remove(instance)`. */
  function RemoveFromFavorites(s: Store, u: UserId, r: RecipeId): (res: (Store, bool))
    ensures res.1
    ensures (u, r) !in res.0.favorites
    ensures forall p :: p != (u, r) ==> (p in res.0.favorites <==> p in s.favorites)
    ensures res.0.(favorites := s.favorites) == s
  {
    (s.(favorites := Delete(s.favorites, u, r)), true)
  }

  /** `add_to_shopping_cart`: `user.shopping_cart_recipes.add(instance)`. */
  function AddToShoppingCart(s: Store, u: UserId, r: RecipeId): (res: (Store, bool))
    ensures res.1
    ensures (u, r) in res.0.cart
    ensures forall p :: p != (u, r) ==> (p in res.0.cart <==> p in s.cart)
    ensures res.0.(cart := s.cart) == s
  {
    (s.(cart := Insert(s.cart, u, r)), true)
  }

  /** `remove_from_shopping_cart`: `user.shopping_cart_recipes.remove(instance)`. */
  function RemoveFromShoppingCart(s: Store, u: UserId, r: RecipeId): (res: (Store, bool))
    ensures res.1
    ensures (u, r) !in res.0.cart
    ensures forall p :: p != (u, r) ==> (p in res.0.cart <==> p in s.cart)
    ensures res.0.(cart := s.cart) == s
  {
    (s.(cart := Delete(s.cart, u, r)), true)
  }

  /** Favourite and cart toggles undo each other and repeat harmlessly. */
  lemma RecipeTogglesRoundTrip(s: Store, u: UserId, r: RecipeId)
    ensures (u, r) !in s.favorites ==> RemoveFromFavorites(AddToFavorites(s, u, r).0, u, r).0 == s
    ensures (u, r) in s.favorites ==> AddToFavorites(s, u, r).0 == s
    ensures AddToFavorites(AddToFavorites(s, u, r).0, u, r) == AddToFavorites(s, u, r)
    ensures (u, r) !in s.cart ==> RemoveFromShoppingCart(AddToShoppingCart(s, u, r).0, u, r).0 == s
    ensures (u, r) in s.cart ==> AddToShoppingCart(s, u, r).0 == s
    ensures AddToShoppingCart(AddToShoppingCart(s, u, r).0, u, r) == AddToShoppingCart(s, u, r)
  {
    InsertDeleteLaws(s.favorites, u, r);
    InsertDeleteLaws(s.cart, u, r);
  }

  /** The favourite and cart toggles keep every store invariant, for a
      stored user and recipe; removing needs nothing. */
  lemma RecipeTogglesPreserveValid(s: Store, c: Constants, u: UserId, r: RecipeId)
    requires Valid(s, c)
    ensures u in s.users && r in s.recipes ==> Valid(AddToFavorites(s, u, r).0, c)
    ensures Valid(RemoveFromFavorites(s, u, r).0, c)
    ensures u in s.users && r in s.recipes ==> Valid(AddToShoppingCart(s, u, r).0, c)
    ensures Valid(RemoveFromShoppingCart(s, u, r).0, c)
  {
  }

  // ---------------------------------------------------------------------
  // SubscriptionSerializer

  /** `add_to_subscriptions` as written: `user.subscriptions.add(instance)`
      with no call to `validate`, so nothing stops `author == subscriber`. */
  function AddToSubscriptions(s: Store, subscriber: UserId, author: UserId): (res: (Store, bool))
    ensures res.1
    ensures (subscriber, author) in res.0.subscriptions
    ensures forall p :: p != (subscriber, author) ==> (p in res.0.subscriptions <==> p in s.subscriptions)
    ensures res.0.(subscriptions := s.subscriptions) == s
  {
    (s.(subscriptions := Insert(s.subscriptions, subscriber, author)), true)
  }

  /** `remove_from_subscriptions`: `user.subscriptions.remove(instance)`. */
  function RemoveFromSubscriptions(s: Store, subscriber: UserId, author: UserId): (res: (Store, bool))
    ensures res.1
    ensures (subscriber, author) !in res.0.subscriptions
    ensures forall p :: p != (subscriber, author) ==> (p in res.0.subscriptions <==> p in s.subscriptions)
    ensures res.0.(subscriptions := s.subscriptions) == s
  {
    (s.(subscriptions := Delete(s.subscriptions, subscriber, author)), true)
  }

  /** `subscriptions` is not symmetric: subscribing to someone does not
      subscribe them back, and `is_subscribed` then holds one way only. */
  lemma SubscriptionIsAsymmetric(s: Store, subscriber: UserId, author: UserId)
    requires subscriber != author
    ensures var t := AddToSubscriptions(s, subscriber, author).0;
      && ((author, subscriber) in t.subscriptions <==> (author, subscriber) in s.subscriptions)
      && Serializers.IsSubscribed(t, Authenticated(subscriber), author)
      && (Serializers.IsSubscribed(t, Authenticated(author), subscriber) <==>
          Serializers.IsSubscribed(s, Authenticated(author), subscriber))
  {
  }

  /** Subscription toggles undo each other and repeat harmlessly. */
  lemma SubscriptionTogglesRoundTrip(s: Store, subscriber: UserId, author: UserId)
    ensures (subscriber, author) !in s.subscriptions ==>
      RemoveFromSubscriptions(AddToSubscriptions(s, subscriber, author).0, subscriber, author).0 == s
    ensures AddToSubscriptions(AddToSubscriptions(s, subscriber, author).0, subscriber, author) ==
      AddToSubscriptions(s, subscriber, author)
  {
    InsertDeleteLaws(s.subscriptions, subscriber, author);
  }

  /** As written, subscribing to oneself is accepted, although
      `SubscriptionSerializer.validate` refuses exactly this pair; the store
      then holds a self-subscription. */
  lemma SelfSubscriptionAccepted(s: Store, u: UserId)
    ensures AddToSubscriptions(s, u, u).1
    ensures !NoSelfSubscription(AddToSubscriptions(s, u, u).0)
    ensures Serializers.ValidateSubscription(u, Some(u)).Err?
  {
    assert (u, u) in AddToSubscriptions(s, u, u).0.subscriptions;
  }

  /** The evidently intended subscribe: `validate` with the target's id
      first, then the insertion. */
  function Subscribe(s: Store, subscriber: UserId, author: UserId): (res: Result<(Store, bool)>)
    ensures res.Err? <==> subscriber == author
    ensures res.Err? ==> res.error.ValidationError?
    ensures res.Ok? ==> res.value.1 && res.value.0 == AddToSubscriptions(s, subscriber, author).0
  {
    var _ :- Serializers.ValidateSubscription(subscriber, Some(author));
    Ok(AddToSubscriptions(s, subscriber, author))
  }

  /** Subscribing with the check, and unsubscribing, keep every store
      invariant, self-subscription included. */
  lemma SubscriptionTogglesPreserveValid(s: Store, c: Constants, subscriber: UserId, author: UserId)
    requires Valid(s, c)
    requires subscriber in s.users && author in s.users
    ensures Subscribe(s, subscriber, author).Ok? ==> Valid(Subscribe(s, subscriber, author).value.0, c)
    ensures Valid(RemoveFromSubscriptions(s, subscriber, author).0, c)
  {
  }
}

=== FILE: serializers.dfy ===
/** The read-side and validation logic of the serializers: username
    validation, the base64 image field, `is_subscribed`, the subscription
    check, and an author's recipe listing under `recipes_limit`. */
module Serializers {
  import opened Errors
  import opened Models
  import PyStr

  // ---------------------------------------------------------------------
  // CustomUserCreateSerializer.validate_username

  /** `validate_username`: `matches` stands for `re.match(USERNAME_PATTERN, ·)`
      succeeding; a match failure is reported first, then any spelling of
      the reserved name `me`; otherwise the input comes back unchanged. */
  function ValidateUsername(data: string, matches: string -> bool): (r: Result<string>)
    ensures !matches(data) ==> r == Err(ValidationError("username"))
    ensures matches(data) ==> (r.Err? <==> PyStr.Lower(data) == "me")
    ensures r.Err? ==> r.error == ValidationError("username")
    ensures r.Ok? ==> r.value == data
  {
    if !matches(data) then Err(ValidationError("username"))
    else if PyStr.Lower(data) == "me" then Err(ValidationError("username"))
    else Ok(data)
  }

  /** The reserved spellings are exactly "me", "Me", "mE" and "ME". */
  lemma ReservedUsernames(data: string, matches: string -> bool)
    requires matches(data)
    ensures ValidateUsername(data, matches).Err? <==> data in {"me", "Me", "mE", "ME"}
  {
    var low := PyStr.Lower(data);
    if low == "me" {
      assert |data| == 2;
      assert PyStr.LowerChar(data[0]) == 'm' && PyStr.LowerChar(data[1]) == 'e';
      assert data[0] == 'm' || data[0] == 'M';
      assert data[1] == 'e' || data[1] == 'E';
      assert data == [data[0], data[1]];
    }
    if data in {"me", "Me", "mE", "ME"} {
      assert low == [PyStr.LowerChar(data[0]), PyStr.LowerChar(data[1])];
    }
  }

  // ---------------------------------------------------------------------
  // Base64ImageField

  /** `ContentFile(decoded, name=...)`. */
  datatype ContentFile = ContentFile(content: seq<bv8>, name: string)

  const Base64Marker: string := ";base64,"

  /** `to_internal_value`: the input must split on ";base64," into exactly a
      header and a payload (otherwise unpacking raises ValueError); the
      extension is what follows the header's last "/"; the file name is the
      generated `uuid` with that extension. `decode` is `base64.b64decode`,
      whose failure (binascii.Error) is a ValueError. */
  function ToInternalValue(data: string, uuid: string, decode: string -> Option<seq<bv8>>): (r: Result<ContentFile>)
    ensures |PyStr.Split(data, Base64Marker)| != 2 ==> r.Err? && r.error.ValueError?
    ensures r.Ok? ==> |PyStr.Split(data, Base64Marker)| == 2
    ensures r.Ok? ==>
      var parts := PyStr.Split(data, Base64Marker);
      && decode(parts[1]) == Some(r.value.content)
      && !PyStr.Contains(parts[0], Base64Marker)
      && !PyStr.Contains(parts[1], Base64Marker)
      && PyStr.StartsWith(r.value.name, uuid + ".")
      && PyStr.EndsWith(parts[0], r.value.name[|uuid| + 1..])
      && !PyStr.Contains(r.value.name[|uuid| + 1..], "/")
    ensures r.Ok? ==> r.value.name == uuid + "." + PyStr.AfterLast(PyStr.Split(data, Base64Marker)[0], "/")
    ensures |PyStr.Split(data, Base64Marker)| == 2 ==>
      (r.Ok? <==> decode(PyStr.Split(data, Base64Marker)[1]).Some?)
  {
    var parts := PyStr.Split(data, Base64Marker);
    if |parts| != 2 then Err(ValueError("unpack"))
    else
      var header := parts[0];
      var ext := PyStr.AfterLast(header, "/");
      PyStr.AfterLastSpec(header, "/");
      match decode(parts[1])
      case None => Err(ValueError("base64"))
      case Some(bytes) =>
        var name := uuid + "." + ext;
        assert name[|uuid| + 1..] == ext;
        Ok(ContentFile(bytes, name))
  }

  /** The text after the last "/" of `a + "/" + b` is `b`, when `b` has none. */
  lemma AfterLastSlash(a: string, b: string)
    requires forall j :: 0 <= j < |b| ==> b[j] != '/'
    ensures PyStr.AfterLast(a + "/" + b, "/") == b
  {
    PyStr.AfterLastSpec(a + "/" + b, "/");
    SlashInside(a, b);
    SuffixAfterSlash(a, b, PyStr.AfterLast(a + "/" + b, "/"));
  }

  lemma SlashInside(a: string, b: string)
    ensures PyStr.OccursAt(a + "/" + b, "/", |a|)
    ensures PyStr.Contains(a + "/" + b, "/")
  {
    assert (a + "/" + b)[|a|..|a| + 1] == "/";
    assert PyStr.OccursAt(a + "/" + b, "/", |a|);
  }

  /** The separator-free suffix that follows a slash of `a + "/" + b` is `b`. */
  lemma SuffixAfterSlash(a: string, b: string, t: string)
    requires forall j :: 0 <= j < |b| ==> b[j] != '/'
    requires !PyStr.Contains(t, "/")
    requires PyStr.EndsWith(a + "/" + b, t)
    requires PyStr.OccursAt(a + "/" + b, "/", |a + "/" + b| - |t| - 1)
    ensures t == b
  {
    var s := a + "/" + b;
    var start := |s| - |t|;
    assert s[start - 1..start] == "/";
    assert s[start - 1] == '/';
    SlashPositions(a, b, t);
    assert s[start..] == b;
  }

  /** Where the slash before the suffix `t` of `a + "/" + b` can be. */
  lemma SlashPositions(a: string, b: string, t: string)
    requires forall j :: 0 <= j < |b| ==> b[j] != '/'
    requires !PyStr.Contains(t, "/")
    requires PyStr.EndsWith(a + "/" + b, t)
    requires |t| < |a + "/" + b| && (a + "/" + b)[|a + "/" + b| - |t| - 1] == '/'
    ensures |t| == |b|
  {
    var s := a + "/" + b;
    var start := |s| - |t|;
    PyStr.NoCharAt(t, '/');
    forall k | start <= k < |s|
      ensures s[k] != '/'
    {
      assert s[k] == t[k - start];
    }
    forall k | |a| < k < |s|
      ensures s[k] != '/'
    {
      assert s[k] == b[k - |a| - 1];
    }
    assert s[|a|] == '/';
  }

  /** A browser data URL `<header>;base64,<payload>`, with no ";" in the
      header or the payload, decodes to its payload under the name
      `<uuid>.<ext>`, `ext` being the subtype after the header's last "/". */
  lemma DataUrlAccepted(prefix: string, ext: string, payload: string, uuid: string, decode: string -> Option<seq<bv8>>)
    requires forall j :: 0 <= j < |prefix| ==> prefix[j] != ';'
    requires forall j :: 0 <= j < |ext| ==> ext[j] != ';' && ext[j] != '/'
    requires forall j :: 0 <= j < |payload| ==> payload[j] != ';'
    requires decode(payload).Some?
    ensures ToInternalValue(prefix + "/" + ext + Base64Marker + payload, uuid, decode) ==
      Ok(ContentFile(decode(payload).value, uuid + "." + ext))
  {
    var header := prefix + "/" + ext;
    forall j | 0 <= j < |header|
      ensures header[j] != ';'
    {
      if j < |prefix| {
        assert header[j] == prefix[j];
      } else if j > |prefix| {
        assert header[j] == ext[j - |prefix| - 1];
      }
    }
    PyStr.SplitAround(header, Base64Marker, payload);
    assert header + Base64Marker + payload == prefix + "/" + ext + Base64Marker + payload;
    AfterLastSlash(prefix, ext);
  }

  /** `to_representation`: the stored file's URL, or None for no file. */
  function ToRepresentation(image: string, url: string -> string): (r: Option<string>)
    ensures r.None? <==> image == ""
    ensures r.Some? ==> r.value == url(image)
  {
    if image == "" then None else Some(url(image))
  }

  /** A stored upload is always represented by the URL of its file name. */
  lemma UploadIsRepresented(data: string, uuid: string, decode: string -> Option<seq<bv8>>, url: string -> string)
    requires ToInternalValue(data, uuid, decode).Ok?
    ensures ToRepresentation(ToInternalValue(data, uuid, decode).value.name, url) ==
      Some(url(ToInternalValue(data, uuid, decode).value.name))
  {
  }

  // ---------------------------------------------------------------------
  // get_is_subscribed and SubscriptionSerializer

  /** `get_is_subscribed`: False for an anonymous requester, otherwise
      whether `target` is among the requester's subscriptions. */
  function IsSubscribed(s: Store, req: Requester, target: UserId): (r: bool)
    ensures req.Anonymous? ==> !r
    ensures req.Authenticated? ==> (r <==> (req.id, target) in s.subscriptions)
  {
    match req
    case Anonymous => false
    case Authenticated(u) => (u, target) in s.subscriptions
  }

  /** `SubscriptionSerializer.validate`: `dataId` is `data['id']`, a KeyError
      when absent; the requester may not subscribe to themselves. */
  function ValidateSubscription(requester: UserId, dataId: Option<int>): (r: Result<int>)
    ensures dataId.None? ==> r == Err(KeyError("id"))
    ensures dataId.Some? ==> (r.Err? <==> dataId.value == requester)
    ensures r.Ok? ==> r.value == dataId.value
  {
    match dataId
    case None => Err(KeyError("id"))
    case Some(id) =>
      if id == requester then Err(ValidationError("non_field_errors")) else Ok(id)
  }

  /** `validate` and `Subscription.clean` reject the same pairs. */
  lemma ValidateAgreesWithClean(requester: UserId, target: UserId)
    ensures ValidateSubscription(requester, Some(target)).Err? <==> CleanSubscription(target, requester).Err?
  {
  }

  /** Every finite set of naturals with an element has a largest one. */
  lemma {:induction false} HasMax(ids: set<nat>)
    requires ids != {}
    ensures exists m :: m in ids && forall y :: y in ids ==> y <= m
    decreases |ids|
  {
    var x :| x in ids;
    var rest := ids - {x};
    if rest != {} {
      HasMax(rest);
      var m :| m in rest && forall y :: y in rest ==> y <= m;
      var top := if x <= m then m else x;
      forall y | y in ids
        ensures y <= top
      {
        if y != x {
          assert y in rest;
        }
      }
      assert top in ids;
    } else {
      forall y | y in ids
        ensures y <= x
      {
        assert y !in rest;
      }
    }
  }

  /** The largest id of a non-empty set. */
  function MaxOf(ids: set<nat>): (m: nat)
    requires ids != {}
    ensures m in ids && forall y :: y in ids ==> y <= m
  {
    HasMax(ids);
    var m :| m in ids && forall y :: y in ids ==> y <= m;
    m
  }

  /** `order_by('-id')`: the ids, largest first. */
  function Descending(ids: set<nat>): (r: seq<nat>)
    ensures |r| == |ids|
    ensures forall x :: x in r <==> x in ids
    ensures forall i, j :: 0 <= i < j < |r| ==> r[i] > r[j]
    decreases |ids|
  {
    if ids == {} then []
    else
      var m := MaxOf(ids);
      var rest := Descending(ids - {m});
      forall j | 0 <= j < |rest|
        ensures rest[j] < m
      {
        assert rest[j] in ids - {m};
      }
      [m] + rest
  }

  /** `get_recipes`: the author's recipes by descending id, sliced to
      `[:recipes_limit]`; None keeps them all and a negative limit is
      rejected by the queryset slice with a ValueError. */
  function GetRecipes(s: Store, author: UserId, limit: Option<int>): (r: Result<seq<RecipeId>>)
    ensures r.Err? <==> limit.Some? && limit.value < 0
    ensures r.Err? ==> r.error.ValueError?
    ensures r.Ok? ==> forall i :: 0 <= i < |r.value| ==> r.value[i] in RecipesOf(s, author)
    ensures r.Ok? ==> forall i, j :: 0 <= i < j < |r.value| ==> r.value[i] > r.value[j]
    ensures r.Ok? ==> forall x, i :: x in RecipesOf(s, author) && x !in r.value && 0 <= i < |r.value| ==> x < r.value[i]
    ensures r.Ok? && limit.None? ==> |r.value| == |RecipesOf(s, author)|
    ensures r.Ok? && limit.Some? ==>
      |r.value| == (if limit.value < |RecipesOf(s, author)| then limit.value else |RecipesOf(s, author)|)
  {
    var ids := RecipesOf(s, author);
    if limit.Some? && limit.value < 0 then Err(ValueError("Negative indexing is not supported."))
    else
      var k := if limit.Some? && limit.value < |ids| then limit.value else |ids|;
      TopOf(ids, k);
      Ok(Descending(ids)[..k])
  }

  /** The first `k` ids by descending order are the `k` largest, in order. */
  lemma TopOf(ids: set<nat>, k: nat)
    requires k <= |ids|
    ensures |Descending(ids)[..k]| == k
    ensures forall i :: 0 <= i < k ==> Descending(ids)[..k][i] in ids
    ensures forall i, j :: 0 <= i < j < k ==> Descending(ids)[..k][i] > Descending(ids)[..k][j]
    ensures forall x, i :: x in ids && x !in Descending(ids)[..k] && 0 <= i < k ==> x < Descending(ids)[..k][i]
  {
    var all := Descending(ids);
    DescendingPrefix(all, k);
    forall i | 0 <= i < k
      ensures all[..k][i] in ids
    {
      assert all[..k][i] == all[i];
    }
  }

  /** Cutting a strictly descending listing keeps the largest elements. */
  lemma DescendingPrefix(all: seq<nat>, k: nat)
    requires k <= |all|
    requires forall i, j :: 0 <= i < j < |all| ==> all[i] > all[j]
    ensures forall x, i :: x in all && x !in all[..k] && 0 <= i < k ==> x < all[i]
  {
    forall x, i | x in all && x !in all[..k] && 0 <= i < k
      ensures x < all[i]
    {
      var j :| 0 <= j < |all| && all[j] == x;
      forall t | 0 <= t < k
        ensures all[t] != x
      {
        assert all[t] == all[..k][t];
      }
    }
  }

  /** `get_recipes_count`: every recipe of the author, whatever the limit. */
  function GetRecipesCount(s: Store, author: UserId): (n: nat)
    ensures n == |Descending(RecipesOf(s, author))|
  {
    |RecipesOf(s, author)|
  }

  /** The listing never exceeds the count, and reaches it exactly when the
      limit is absent or at least the count. */
  lemma RecipesWithinCount(s: Store, author: UserId, limit: Option<int>)
    requires GetRecipes(s, author, limit).Ok?
    ensures |GetRecipes(s, author, limit).value| <= GetRecipesCount(s, author)
    ensures |GetRecipes(s, author, limit).value| == GetRecipesCount(s, author) <==>
      limit.None? || limit.value >= GetRecipesCount(s, author)
  {
  }
}

=== FILE: shopping_list.dfy ===
/** The shopping-list aggregation: a left fold of line items into an
    insertion-ordered dictionary `key -> [total, unit]`, where the first line
    item seen for a key fixes the unit and later ones only add to the total.

    The fold is generic in the key so that the same definition serves the
    dictionary keyed by ingredient name and the one keyed by (name, unit). */
module ShoppingList {

  /** One line item as the loop reads it: key, measurement unit, amount. */
  datatype Row<K> = Row(key: K, unit: string, amount: int)

  /** One dictionary entry `key: [total, unit]`. */
  datatype Entry<K> = Entry(key: K, total: int, unit: string)

  // ---------------------------------------------------------------------
  // The dictionary as an association list

  predicate HasKey<K(==)>(m: seq<Entry<K>>, k: K) {
    exists i :: 0 <= i < |m| && m[i].key == k
  }

  predicate DistinctKeys<K(==)>(m: seq<Entry<K>>) {
    forall i, j :: 0 <= i < j < |m| ==> m[i].key != m[j].key
  }

  /** The position of `k` in the dictionary, or -1 (`k in d`). */
  function IndexOf<K(==)>(m: seq<Entry<K>>, k: K): (i: int)
    ensures -1 <= i < |m|
    ensures i >= 0 ==> m[i].key == k
    ensures i < 0 <==> !HasKey(m, k)
  {
    if m == [] then -1
    else if m[0].key == k then 0
    else
      var j := IndexOf(m[1..], k);
      assert forall t :: 1 <= t < |m| ==> m[t] == m[1..][t - 1];
      if j < 0 then -1 else j + 1
  }

  /** One iteration of the loop body: add to an existing key, or insert a
      new key at the end with the row's amount and unit. */
  function AddRow<K(==)>(m: seq<Entry<K>>, row: Row<K>): seq<Entry<K>>
  {
    var i := IndexOf(m, row.key);
    if i >= 0 then m[i := Entry(row.key, m[i].total + row.amount, m[i].unit)]
    else m + [Entry(row.key, row.amount, row.unit)]
  }

  /** The dictionary after the loop has consumed `rows` in order, from `{}`. */
  function Aggregate<K(==)>(rows: seq<Row<K>>): seq<Entry<K>>
  {
    if rows == [] then [] else AddRow(Aggregate(rows[..|rows| - 1]), rows[|rows| - 1])
  }

  lemma AggregateSnoc<K>(rows: seq<Row<K>>, x: Row<K>)
    ensures Aggregate(rows + [x]) == AddRow(Aggregate(rows), x)
  {
    assert (rows + [x])[..|rows|] == rows;
  }

  // ---------------------------------------------------------------------
  // Reference definitions, read left to right over the line items

  predicate Mentions<K(==)>(rows: seq<Row<K>>, k: K) {
    exists j :: 0 <= j < |rows| && rows[j].key == k
  }

  /** The sum of the amounts of every row with key `k`. */
  function Total<K(==)>(rows: seq<Row<K>>, k: K): int {
    if rows == [] then 0
    else (if rows[0].key == k then rows[0].amount else 0) + Total(rows[1..], k)
  }

  /** The position of the first row with key `k`. */
  function FirstIndex<K(==)>(rows: seq<Row<K>>, k: K): (j: nat)
    requires Mentions(rows, k)
    ensures j < |rows| && rows[j].key == k
    ensures forall i :: 0 <= i < j ==> rows[i].key != k
  {
    if rows[0].key == k then 0
    else
      assert forall t :: 1 <= t < |rows| ==> rows[t] == rows[1..][t - 1];
      assert Mentions(rows[1..], k) by {
        var t :| 0 <= t < |rows| && rows[t].key == k;
        assert rows[1..][t - 1].key == k;
      }
      1 + FirstIndex(rows[1..], k)
  }

  /** The unit of the first row with key `k`. */
  function FirstUnit<K(==)>(rows: seq<Row<K>>, k: K): string
    requires Mentions(rows, k)
  {
    rows[FirstIndex(rows, k)].unit
  }

  /** `m` is the dictionary the loop must produce from `rows`: one entry per
      key mentioned, no key twice, each total the sum over all rows with that
      key, each unit the first row's unit, and keys in first-encounter order. */
  ghost predicate Summarizes<K>(rows: seq<Row<K>>, m: seq<Entry<K>>) {
    && DistinctKeys(m)
    && (forall j :: 0 <= j < |rows| ==> HasKey(m, rows[j].key))
    && (forall i :: 0 <= i < |m| ==> Mentions(rows, m[i].key))
    && (forall i :: 0 <= i < |m| ==>
          m[i].total == Total(rows, m[i].key) && m[i].unit == FirstUnit(rows, m[i].key))
    && (forall i, j :: 0 <= i < j < |m| ==>
          FirstIndex(rows, m[i].key) < FirstIndex(rows, m[j].key))
  }

  // ---------------------------------------------------------------------
  // How the reference definitions grow by one row

  lemma {:induction false} TotalSnoc<K>(rows: seq<Row<K>>, x: Row<K>, k: K)
    ensures Total(rows + [x], k) == Total(rows, k) + (if x.key == k then x.amount else 0)
  {
    if rows != [] {
      assert (rows + [x])[1..] == rows[1..] + [x];
      TotalSnoc(rows[1..], x, k);
    }
  }

  lemma {:induction false} TotalUnmentioned<K>(rows: seq<Row<K>>, k: K)
    requires !Mentions(rows, k)
    ensures Total(rows, k) == 0
  {
    if rows != [] {
      assert rows[0].key != k;
      assert !Mentions(rows[1..], k) by {
        assert forall t :: 0 <= t < |rows[1..]| ==> rows[1..][t] == rows[t + 1];
      }
      TotalUnmentioned(rows[1..], k);
    }
  }

  lemma FirstIndexSnoc<K>(rows: seq<Row<K>>, x: Row<K>, k: K)
    requires Mentions(rows, k)
    ensures Mentions(rows + [x], k)
    ensures FirstIndex(rows + [x], k) == FirstIndex(rows, k)
  {
    var j := FirstIndex(rows, k);
    assert (rows + [x])[j] == rows[j];
    var j' := FirstIndex(rows + [x], k);
    assert j' <= j;
  }

  lemma FirstIndexNew<K>(rows: seq<Row<K>>, x: Row<K>)
    requires !Mentions(rows, x.key)
    ensures Mentions(rows + [x], x.key)
    ensures FirstIndex(rows + [x], x.key) == |rows|
  {
    assert (rows + [x])[|rows|] == x;
    var j := FirstIndex(rows + [x], x.key);
    assert forall t :: 0 <= t < |rows| ==> (rows + [x])[t] == rows[t];
  }

  lemma MentionsSnoc<K>(rows: seq<Row<K>>, x: Row<K>)
    ensures forall k :: Mentions(rows + [x], k) <==> Mentions(rows, k) || x.key == k
  {
    forall k
      ensures Mentions(rows + [x], k) <==> Mentions(rows, k) || x.key == k
    {
      if Mentions(rows, k) {
        var t :| 0 <= t < |rows| && rows[t].key == k;
        assert (rows + [x])[t] == rows[t];
      }
      if Mentions(rows + [x], k) && x.key != k {
        var t :| 0 <= t < |rows + [x]| && (rows + [x])[t].key == k;
        assert rows[t] == (rows + [x])[t];
      }
      assert (rows + [x])[|rows|] == x;
    }
  }

  // ---------------------------------------------------------------------
  // The fold produces exactly the specified dictionary

  /** Adding to an existing key keeps the keys in place and makes every
      entry agree with the reference definitions over the longer rows. */
  lemma AddRowPresentEntries<K>(rows: seq<Row<K>>, m: seq<Entry<K>>, x: Row<K>)
    requires Summarizes(rows, m)
    requires HasKey(m, x.key)
    ensures |AddRow(m, x)| == |m|
    ensures forall j :: 0 <= j < |m| ==> AddRow(m, x)[j].key == m[j].key
    ensures forall j :: 0 <= j < |m| ==>
      && Mentions(rows + [x], m[j].key)
      && AddRow(m, x)[j].total == Total(rows + [x], m[j].key)
      && AddRow(m, x)[j].unit == FirstUnit(rows + [x], m[j].key)
      && FirstIndex(rows + [x], m[j].key) == FirstIndex(rows, m[j].key)
  {
    var i := IndexOf(m, x.key);
    var m' := AddRow(m, x);
    assert m' == m[i := Entry(x.key, m[i].total + x.amount, m[i].unit)];
    forall j | 0 <= j < |m|
      ensures Mentions(rows + [x], m[j].key)
      ensures m'[j].total == Total(rows + [x], m[j].key)
      ensures m'[j].unit == FirstUnit(rows + [x], m[j].key)
      ensures FirstIndex(rows + [x], m[j].key) == FirstIndex(rows, m[j].key)
    {
      TotalSnoc(rows, x, m[j].key);
      FirstIndexSnoc(rows, x, m[j].key);
    }
  }

  lemma AddRowPresent<K>(rows: seq<Row<K>>, m: seq<Entry<K>>, x: Row<K>)
    requires Summarizes(rows, m)
    requires HasKey(m, x.key)
    ensures Summarizes(rows + [x], AddRow(m, x))
  {
    var rows' := rows + [x];
    var m' := AddRow(m, x);
    AddRowPresentEntries(rows, m, x);
    assert DistinctKeys(m') by {
      forall a, b | 0 <= a < b < |m'|
        ensures m'[a].key != m'[b].key
      {
        assert m'[a].key == m[a].key && m'[b].key == m[b].key;
      }
    }
    forall a, b | 0 <= a < b < |m'|
      ensures FirstIndex(rows', m'[a].key) < FirstIndex(rows', m'[b].key)
    {
      assert FirstIndex(rows, m[a].key) < FirstIndex(rows, m[b].key);
    }
    forall j | 0 <= j < |rows'|
      ensures HasKey(m', rows'[j].key)
    {
      var k := rows'[j].key;
      if j < |rows| {
        assert rows'[j] == rows[j];
        assert HasKey(m, rows[j].key);
      } else {
        assert k == x.key;
      }
      var t :| 0 <= t < |m| && m[t].key == k;
      assert m'[t].key == k;
    }
  }

  lemma AddRowAbsent<K>(rows: seq<Row<K>>, m: seq<Entry<K>>, x: Row<K>)
    requires Summarizes(rows, m)
    requires !HasKey(m, x.key)
    ensures Summarizes(rows + [x], AddRow(m, x))
  {
    var rows' := rows + [x];
    var e := Entry(x.key, x.amount, x.unit);
    var m' := AddRow(m, x);
    assert m' == m + [e];
    assert !Mentions(rows, x.key);
    MentionsSnoc(rows, x);
    FirstIndexNew(rows, x);
    TotalSnoc(rows, x, x.key);
    TotalUnmentioned(rows, x.key);
    forall i | 0 <= i < |m'|
      ensures Mentions(rows', m'[i].key)
      ensures m'[i].total == Total(rows', m'[i].key)
      ensures m'[i].unit == FirstUnit(rows', m'[i].key)
      ensures i < |m| ==> m'[i] == m[i] && FirstIndex(rows', m'[i].key) == FirstIndex(rows, m[i].key)
    {
      if i < |m| {
        TotalSnoc(rows, x, m[i].key);
        FirstIndexSnoc(rows, x, m[i].key);
      }
    }
    assert DistinctKeys(m') by {
      forall i, j | 0 <= i < j < |m'|
        ensures m'[i].key != m'[j].key
      {
        assert m'[i] == m[i];
        if j < |m| {
          assert m'[j] == m[j];
        }
      }
    }
    forall i, j | 0 <= i < j < |m'|
      ensures FirstIndex(rows', m'[i].key) < FirstIndex(rows', m'[j].key)
    {
      if j < |m| {
        assert FirstIndex(rows, m[i].key) < FirstIndex(rows, m[j].key);
      }
    }
    forall j | 0 <= j < |rows'|
      ensures HasKey(m', rows'[j].key)
    {
      var k := rows'[j].key;
      if j < |rows| {
        assert rows'[j] == rows[j];
        var t :| 0 <= t < |m| && m[t].key == k;
        assert m'[t].key == k;
      } else {
        assert m'[|m|].key == k;
      }
    }
  }

  /** The fold meets its specification, whatever the rows. */
  lemma {:induction false} AggregateSpec<K>(rows: seq<Row<K>>)
    ensures Summarizes(rows, Aggregate(rows))
  {
    if rows != [] {
      var front := rows[..|rows| - 1];
      var x := rows[|rows| - 1];
      assert rows == front + [x];
      AggregateSpec(front);
      if HasKey(Aggregate(front), x.key) {
        AddRowPresent(front, Aggregate(front), x);
      } else {
        AddRowAbsent(front, Aggregate(front), x);
      }
    }
  }

  // ---------------------------------------------------------------------
  // Keying by (name, unit): totals never mix units

  /** The same rows keyed by (ingredient name, measurement unit). */
  function KeyByUnit(rows: seq<Row<string>>): (out: seq<Row<(string, string)>>)
    ensures |out| == |rows|
    ensures forall i :: 0 <= i < |rows| ==>
      out[i] == Row((rows[i].key, rows[i].unit), rows[i].unit, rows[i].amount)
  {
    seq(|rows|, i requires 0 <= i < |rows| => Row((rows[i].key, rows[i].unit), rows[i].unit, rows[i].amount))
  }

  /** The sum of amounts over the rows with this name AND this unit. */
  function TotalIn(rows: seq<Row<string>>, name: string, unit: string): int {
    if rows == [] then 0
    else
      var here := if rows[0].key == name && rows[0].unit == unit then rows[0].amount else 0;
      here + TotalIn(rows[1..], name, unit)
  }

  /** The aggregation keyed by (name, unit). */
  function AggregateByUnit(rows: seq<Row<string>>): seq<Entry<(string, string)>>
  {
    Aggregate(KeyByUnit(rows))
  }

  lemma {:induction false} TotalKeyByUnit(rows: seq<Row<string>>, name: string, unit: string)
    ensures Total(KeyByUnit(rows), (name, unit)) == TotalIn(rows, name, unit)
  {
    if rows != [] {
      assert KeyByUnit(rows)[1..] == KeyByUnit(rows[1..]);
      TotalKeyByUnit(rows[1..], name, unit);
    }
  }

  /** Keyed by (name, unit), every entry carries the unit of its key and
      totals only the rows with that name and that unit; each (name, unit)
      present in the rows gets exactly one entry. */
  lemma AggregateByUnitSpec(rows: seq<Row<string>>)
    ensures DistinctKeys(AggregateByUnit(rows))
    ensures forall i :: 0 <= i < |AggregateByUnit(rows)| ==>
      AggregateByUnit(rows)[i].unit == AggregateByUnit(rows)[i].key.1 &&
      AggregateByUnit(rows)[i].total ==
        TotalIn(rows, AggregateByUnit(rows)[i].key.0, AggregateByUnit(rows)[i].key.1)
    ensures forall j :: 0 <= j < |rows| ==> HasKey(AggregateByUnit(rows), (rows[j].key, rows[j].unit))
    ensures forall i :: 0 <= i < |AggregateByUnit(rows)| ==>
      exists j :: 0 <= j < |rows| && (rows[j].key, rows[j].unit) == AggregateByUnit(rows)[i].key
  {
    var keyed := KeyByUnit(rows);
    var m := AggregateByUnit(rows);
    AggregateSpec(keyed);
    forall i | 0 <= i < |m|
      ensures m[i].unit == m[i].key.1
      ensures m[i].total == TotalIn(rows, m[i].key.0, m[i].key.1)
    {
      TotalKeyByUnit(rows, m[i].key.0, m[i].key.1);
    }
    forall j | 0 <= j < |rows|
      ensures HasKey(m, (rows[j].key, rows[j].unit))
    {
      assert keyed[j].key == (rows[j].key, rows[j].unit);
    }
    forall i | 0 <= i < |m|
      ensures exists j :: 0 <= j < |rows| && (rows[j].key, rows[j].unit) == m[i].key
    {
      assert Mentions(keyed, m[i].key);
      var j :| 0 <= j < |keyed| && keyed[j].key == m[i].key;
      assert (rows[j].key, rows[j].unit) == m[i].key;
    }
  }

  /** Keyed by name alone, two line items of "sugar" in grams and in
      tablespoons come out as a single entry of 102 grams. */
  lemma MixedUnitsCounterexample()
    ensures Aggregate([Row("sugar", "g", 100), Row("sugar", "tbsp", 2)])
      == [Entry("sugar", 102, "g")]
    ensures AggregateByUnit([Row("sugar", "g", 100), Row("sugar", "tbsp", 2)])
      == [Entry(("sugar", "g"), 100, "g"), Entry(("sugar", "tbsp"), 2, "tbsp")]
  {
    var rows := [Row("sugar", "g", 100), Row("sugar", "tbsp", 2)];
    assert rows[..1] == [Row("sugar", "g", 100)];
    assert [Row("sugar", "g", 100)][..0] == [];
    var keyed := KeyByUnit(rows);
    assert keyed == [Row(("sugar", "g"), "g", 100), Row(("sugar", "tbsp"), "tbsp", 2)];
    assert keyed[..1] == [Row(("sugar", "g"), "g", 100)];
    assert [Row(("sugar", "g"), "g", 100)][..0] == [];
  }
}

=== FILE: views.dfy ===
/** The view-level logic: the recipe queryset annotation, the choice of
    serializer and of permission classes, and the shopping-list download,
    whose nested loop builds the dictionary `name -> [total, unit]` from the
    requester's cart. */
module Views {
  import opened Errors
  import opened Models
  import opened Filters
  import opened ShoppingList
  import Permissions

  // ---------------------------------------------------------------------
  // RecipeCRUDViewSet.get_queryset

  /** All recipes; for an authenticated requester each row is annotated with
      whether they favourited it and whether it is in their cart. `all` is
      the row order of `Recipe.objects.all()`. This is the corrected
      annotation, `Exists` over the filtered queryset itself; the code as
      written is `GetQuerysetAsWritten`. */
  function GetQueryset(s: Store, req: Requester, all: seq<RecipeId>): (q: Queryset)
    ensures Ids(q) == all
    ensures req.Anonymous? <==> q.Plain?
    ensures req.Authenticated? ==> forall i :: 0 <= i < |all| ==>
      && (q.rows[i].isFavorited <==> (req.id, all[i]) in s.favorites)
      && (q.rows[i].isInShoppingCart <==> (req.id, all[i]) in s.cart)
  {
    match req
    case Anonymous => Plain(all)
    case Authenticated(u) =>
      WithFlags(seq(|all|, i requires 0 <= i < |all| =>
        Annotated(all[i], (u, all[i]) in s.favorites, (u, all[i]) in s.cart)))
  }

  /** `get_queryset` as written: for an authenticated requester it calls
      `.exists()` on `Recipe.objects.filter(pk=OuterRef('pk'), ...)`, which
      runs that query on its own rather than as a subquery, and Django
      refuses an outer reference there with a ValueError. Anonymous
      requesters get the plain listing. */
  function GetQuerysetAsWritten(s: Store, req: Requester, all: seq<RecipeId>): (r: Result<Queryset>)
    ensures r.Err? <==> req.Authenticated?
    ensures r.Err? ==> r.error.ValueError?
    ensures r.Ok? ==> r.value == Plain(all) && Ids(r.value) == all
  {
    match req
    case Anonymous => Ok(Plain(all))
    case Authenticated(_) => Err(ValueError("outer reference outside a subquery"))
  }

  /** As written, the recipe listing fails for every authenticated
      requester, while `GetQueryset` (the annotation built with
      `Exists(Recipe.objects.filter(...))`) lists every recipe with the
      requester's flags; for anonymous requesters the two agree. */
  lemma AuthenticatedListingFails(s: Store, req: Requester, all: seq<RecipeId>)
    ensures req.Authenticated? ==> GetQuerysetAsWritten(s, req, all) == Err(ValueError("outer reference outside a subquery"))
    ensures req.Authenticated? ==> Ids(GetQueryset(s, req, all)) == all && GetQueryset(s, req, all).WithFlags?
    ensures req.Anonymous? ==> GetQuerysetAsWritten(s, req, all) == Ok(GetQueryset(s, req, all))
  {
  }

  /** The ids a flag filter keeps from an annotated listing of `all`, when a
      row is kept exactly when `(u, recipe)` is in `rel`. */
  lemma KeptIds(all: seq<RecipeId>, q: Queryset, kept: Queryset, u: UserId, rel: set<(UserId, RecipeId)>)
    requires q.WithFlags? && kept.WithFlags? && Ids(q) == all
    requires forall a :: a in kept.rows ==> a in q.rows
    requires forall i :: 0 <= i < |q.rows| ==> (q.rows[i] in kept.rows <==> (u, all[i]) in rel)
    ensures forall x :: x in Ids(kept) <==> x in all && (u, x) in rel
  {
    forall x
      ensures x in Ids(kept) <==> x in all && (u, x) in rel
    {
      if x in all && (u, x) in rel {
        var i :| 0 <= i < |all| && all[i] == x;
        assert q.rows[i].recipe == x;
        var j :| 0 <= j < |kept.rows| && kept.rows[j] == q.rows[i];
        assert Ids(kept)[j] == x;
      }
      if x in Ids(kept) {
        var j :| 0 <= j < |kept.rows| && kept.rows[j].recipe == x;
        assert kept.rows[j] in q.rows;
        var i :| 0 <= i < |q.rows| && q.rows[i] == kept.rows[j];
        assert all[i] == x;
      }
    }
  }

  /** Listing with `is_favorited=1` gives an authenticated requester exactly
      their favourites and fails with a FieldError for an anonymous one. */
  lemma FavoritedFilterSelectsFavorites(s: Store, req: Requester, all: seq<RecipeId>)
    ensures req.Anonymous? ==>
      FilterIsFavorited(GetQueryset(s, req, all), "1") == Err(FieldError("is_favorited"))
    ensures req.Authenticated? ==> FilterIsFavorited(GetQueryset(s, req, all), "1").Ok?
    ensures req.Authenticated? ==> forall x ::
      x in Ids(FilterIsFavorited(GetQueryset(s, req, all), "1").value) <==>
        x in all && (req.id, x) in s.favorites
  {
    if req.Authenticated? {
      var q := GetQueryset(s, req, all);
      KeptIds(all, q, FilterIsFavorited(q, "1").value, req.id, s.favorites);
    }
  }

  /** Listing with `is_in_shopping_cart=1` gives an authenticated requester
      exactly the recipes in their cart and fails with a FieldError for an
      anonymous one. */
  lemma CartFilterSelectsCart(s: Store, req: Requester, all: seq<RecipeId>)
    ensures req.Anonymous? ==>
      FilterIsInShoppingCart(GetQueryset(s, req, all), "1") == Err(FieldError("is_in_shopping_cart"))
    ensures req.Authenticated? ==> FilterIsInShoppingCart(GetQueryset(s, req, all), "1").Ok?
    ensures req.Authenticated? ==> forall x ::
      x in Ids(FilterIsInShoppingCart(GetQueryset(s, req, all), "1").value) <==>
        x in all && (req.id, x) in s.cart
  {
    if req.Authenticated? {
      var q := GetQueryset(s, req, all);
      KeptIds(all, q, FilterIsInShoppingCart(q, "1").value, req.id, s.cart);
    }
  }

  // ---------------------------------------------------------------------
  // get_serializer_class and get_permissions

  datatype RecipeSerializer = RecipeCreateUpdateSerializer | RecipeListSerializer

  /** `RecipeCRUDViewSet.get_serializer_class`. */
  function RecipeSerializerFor(verb: string): (r: RecipeSerializer)
    ensures r == RecipeCreateUpdateSerializer <==> verb in {"POST", "PATCH", "DELETE"}
    ensures Permissions.IsSafe(verb) ==> r == RecipeListSerializer
  {
    if verb == "POST" || verb == "PATCH" || verb == "DELETE" then RecipeCreateUpdateSerializer
    else RecipeListSerializer
  }

  datatype UserSerializer = CustomUserCreateSerializer | CustomUserSerializer

  /** `CustomUserViewSet.get_serializer_class`. */
  function UserSerializerFor(action: string): (r: UserSerializer)
    ensures r == CustomUserCreateSerializer <==> action == "create"
  {
    if action == "create" then CustomUserCreateSerializer else CustomUserSerializer
  }

  datatype PermissionClass = ReadOnlyClass | AllowAnyClass | IsAuthenticatedClass

  /** `CustomUserViewSet.get_permissions`. */
  function UserPermissionsFor(action: string): seq<PermissionClass>
  {
    if action == "list" || action == "retrieve" then [ReadOnlyClass]
    else if action == "create" then [AllowAnyClass]
    else [IsAuthenticatedClass]
  }

  predicate Grants(p: PermissionClass, verb: string, req: Requester) {
    match p
    case ReadOnlyClass => Permissions.ReadOnly(verb)
    case AllowAnyClass => true
    case IsAuthenticatedClass => Permissions.IsAuthenticated(req)
  }

  /** A request passes when every permission class of the action grants it. */
  predicate UserEndpointAllows(action: string, verb: string, req: Requester) {
    forall i :: 0 <= i < |UserPermissionsFor(action)| ==> Grants(UserPermissionsFor(action)[i], verb, req)
  }

  /** On the user endpoint an anonymous requester may only register or read
      with a safe method through `list`/`retrieve`; an authenticated one is
      refused only an unsafe method on `list`/`retrieve`. */
  lemma UserEndpointAccess(action: string, verb: string, req: Requester)
    ensures req.Anonymous? ==> (UserEndpointAllows(action, verb, req) <==>
      action == "create" || ((action == "list" || action == "retrieve") && Permissions.IsSafe(verb)))
    ensures req.Authenticated? ==> (UserEndpointAllows(action, verb, req) <==>
      !((action == "list" || action == "retrieve") && !Permissions.IsSafe(verb)))
  {
    var ps := UserPermissionsFor(action);
    assert |ps| == 1;
    assert UserEndpointAllows(action, verb, req) <==> Grants(ps[0], verb, req);
  }

  // ---------------------------------------------------------------------
  // download_shopping_cart

  /** Every line item names a stored ingredient. */
  ghost predicate ItemsResolve(s: Store) {
    forall li :: li in s.lineItems ==> li.ingredient in s.ingredients
  }

  /** What the loop reads from one line item: ingredient name, unit, amount. */
  function RowOf(s: Store, li: LineItem): Row<string>
    requires li.ingredient in s.ingredients
  {
    Row(s.ingredients[li.ingredient].name, s.ingredients[li.ingredient].unit, li.amount)
  }

  function RowsOf(s: Store, items: seq<LineItem>): (rows: seq<Row<string>>)
    requires forall li :: li in items ==> li.ingredient in s.ingredients
    ensures |rows| == |items|
  {
    if items == [] then []
    else RowsOf(s, items[..|items| - 1]) + [RowOf(s, items[|items| - 1])]
  }

  /** The rows of one recipe, in line-item order. */
  function RecipeRows(s: Store, r: RecipeId): seq<Row<string>>
    requires ItemsResolve(s)
  {
    RowsOf(s, ItemsOf(s.lineItems, r))
  }

  /** The rows of the cart: recipe order first, then line-item order. */
  function CartRows(s: Store, order: seq<RecipeId>): seq<Row<string>>
    requires ItemsResolve(s)
  {
    if order == [] then []
    else CartRows(s, order[..|order| - 1]) + RecipeRows(s, order[|order| - 1])
  }

  /** Some line item of a recipe in `recipes` has an ingredient called `name`. */
  ghost predicate NamedInRecipes(s: Store, recipes: set<RecipeId>, name: string)
    requires ItemsResolve(s)
  {
    exists li :: li in s.lineItems && li.recipe in recipes && s.ingredients[li.ingredient].name == name
  }

  /** The sum of the amounts of the line items in `items` whose recipe is in
      `recipes` and whose ingredient is called `name`. */
  function AmountIn(s: Store, items: seq<LineItem>, recipes: set<RecipeId>, name: string): int
    requires forall li :: li in items ==> li.ingredient in s.ingredients
  {
    if items == [] then 0
    else
      var li := items[|items| - 1];
      var here := if li.recipe in recipes && s.ingredients[li.ingredient].name == name then li.amount else 0;
      AmountIn(s, items[..|items| - 1], recipes, name) + here
  }

  /** The two ways one row updates the dictionary. */
  lemma AddRowCases(m: seq<Entry<string>>, row: Row<string>)
    ensures var i := IndexOf(m, row.key);
      i >= 0 ==> AddRow(m, row) == m[i := Entry(row.key, m[i].total + row.amount, m[i].unit)]
    ensures IndexOf(m, row.key) < 0 ==> AddRow(m, row) == m + [Entry(row.key, row.amount, row.unit)]
  {
  }

  /** One more line item of the prefix adds its row at the end. */
  lemma RowsOfPrefix(s: Store, items: seq<LineItem>, j: int)
    requires forall li :: li in items ==> li.ingredient in s.ingredients
    requires 0 <= j < |items|
    ensures RowsOf(s, items[..j + 1]) == RowsOf(s, items[..j]) + [RowOf(s, items[j])]
  {
    assert items[..j + 1][..j] == items[..j];
  }

  /** The inner loop of the download: the line items of one recipe folded
      into the dictionary built from the rows `done` so far. */
  method AddItems(s: Store, list: seq<Entry<string>>, items: seq<LineItem>, ghost done: seq<Row<string>>)
    returns (out: seq<Entry<string>>)
    requires forall li :: li in items ==> li.ingredient in s.ingredients
    requires list == Aggregate(done)
    ensures out == Aggregate(done + RowsOf(s, items))
  {
    out := list;
    var j := 0;
    assert items[..0] == [];
    assert done + RowsOf(s, items[..0]) == done;
    while j < |items|
      invariant 0 <= j <= |items|
      invariant out == Aggregate(done + RowsOf(s, items[..j]))
    {
      ghost var before := done + RowsOf(s, items[..j]);
      ghost var previous := out;
      var li := items[j];
      var ingredient := s.ingredients[li.ingredient];
      var k := IndexOf(out, ingredient.name);
      AddRowCases(out, RowOf(s, li));
      if k >= 0 {
        out := out[k := Entry(ingredient.name, out[k].total + li.amount, out[k].unit)];
      } else {
        out := out + [Entry(ingredient.name, li.amount, ingredient.unit)];
      }
      assert out == AddRow(previous, RowOf(s, li));
      RowsOfPrefix(s, items, j);
      assert done + RowsOf(s, items[..j + 1]) == before + [RowOf(s, li)];
      AggregateSnoc(before, RowOf(s, li));
      j := j + 1;
    }
    assert items[..j] == items;
  }

  /** The shopping list of the requester whose cart lists `order`: the loop
      over the cart's recipes and their line items, adding each amount to
      the ingredient's entry or inserting a new entry with the item's unit. */
  method DownloadShoppingCart(s: Store, u: UserId, order: seq<RecipeId>) returns (list: seq<Entry<string>>)
    requires ItemsResolve(s)
    requires IsListing(CartOf(s, u), order)
    ensures list == Aggregate(CartRows(s, order))
    ensures Summarizes(CartRows(s, order), list)
    ensures CartOf(s, u) == {} ==> list == []
    ensures forall name :: HasKey(list, name) <==> NamedInRecipes(s, CartOf(s, u), name)
    ensures forall i :: 0 <= i < |list| ==> list[i].total == AmountIn(s, s.lineItems, CartOf(s, u), list[i].key)
  {
    list := [];
    var i := 0;
    while i < |order|
      invariant 0 <= i <= |order|
      invariant list == Aggregate(CartRows(s, order[..i]))
    {
      assert order[..i + 1][..i] == order[..i];
      list := AddItems(s, list, ItemsOf(s.lineItems, order[i]), CartRows(s, order[..i]));
      i := i + 1;
    }
    assert order[..i] == order;
    ShoppingListSpec(s, u, order);
  }

  /** The shopping list keyed by (name, measurement unit), the evidently
      intended download: no entry adds amounts of different units, and every
      (name, unit) of the cart's line items gets exactly one entry. */
  function ShoppingListByUnit(s: Store, order: seq<RecipeId>): (list: seq<Entry<(string, string)>>)
    requires ItemsResolve(s)
    ensures DistinctKeys(list)
    ensures forall i :: 0 <= i < |list| ==>
      list[i].unit == list[i].key.1 && list[i].total == TotalIn(CartRows(s, order), list[i].key.0, list[i].key.1)
    ensures forall j :: 0 <= j < |CartRows(s, order)| ==>
      HasKey(list, (CartRows(s, order)[j].key, CartRows(s, order)[j].unit))
    ensures forall i :: 0 <= i < |list| ==>
      exists j :: 0 <= j < |CartRows(s, order)| && (CartRows(s, order)[j].key, CartRows(s, order)[j].unit) == list[i].key
  {
    AggregateByUnitSpec(CartRows(s, order));
    AggregateByUnit(CartRows(s, order))
  }

  /** What the aggregated cart rows say about the store. */
  lemma ShoppingListSpec(s: Store, u: UserId, order: seq<RecipeId>)
    requires ItemsResolve(s)
    requires IsListing(CartOf(s, u), order)
    ensures Summarizes(CartRows(s, order), Aggregate(CartRows(s, order)))
    ensures CartOf(s, u) == {} ==> Aggregate(CartRows(s, order)) == []
    ensures forall name :: HasKey(Aggregate(CartRows(s, order)), name) <==> NamedInRecipes(s, CartOf(s, u), name)
    ensures forall i :: 0 <= i < |Aggregate(CartRows(s, order))| ==>
      Aggregate(CartRows(s, order))[i].total ==
        AmountIn(s, s.lineItems, CartOf(s, u), Aggregate(CartRows(s, order))[i].key)
  {
    var list := Aggregate(CartRows(s, order));
    AggregateSpec(CartRows(s, order));
    CartKeys(s, u, order);
    if order != [] {
      assert order[0] in CartOf(s, u);
    }
    forall t | 0 <= t < |list|
      ensures list[t].total == AmountIn(s, s.lineItems, CartOf(s, u), list[t].key)
    {
      CartTotal(s, u, order, list[t].key);
    }
  }

  // ---------------------------------------------------------------------
  // The cart rows in terms of the store

  lemma {:induction false} MentionsConcat<K>(a: seq<Row<K>>, b: seq<Row<K>>, k: K)
    ensures Mentions(a + b, k) <==> Mentions(a, k) || Mentions(b, k)
  {
    if Mentions(a, k) {
      var t :| 0 <= t < |a| && a[t].key == k;
      assert (a + b)[t] == a[t];
    }
    if Mentions(b, k) {
      var t :| 0 <= t < |b| && b[t].key == k;
      assert (a + b)[|a| + t] == b[t];
    }
    if Mentions(a + b, k) {
      var t :| 0 <= t < |a + b| && (a + b)[t].key == k;
      if t < |a| {
        assert a[t] == (a + b)[t];
      } else {
        assert b[t - |a|] == (a + b)[t];
      }
    }
  }

  lemma {:induction false} MentionsRowsOf(s: Store, items: seq<LineItem>, name: string)
    requires forall li :: li in items ==> li.ingredient in s.ingredients
    ensures Mentions(RowsOf(s, items), name) <==>
      exists li :: li in items && s.ingredients[li.ingredient].name == name
  {
    if items != [] {
      var front := items[..|items| - 1];
      var last := items[|items| - 1];
      assert items == front + [last];
      MentionsRowsOf(s, front, name);
      MentionsConcat(RowsOf(s, front), [RowOf(s, last)], name);
      assert Mentions([RowOf(s, last)], name) <==> s.ingredients[last.ingredient].name == name by {
        assert [RowOf(s, last)][0] == RowOf(s, last);
      }
      if exists li :: li in items && s.ingredients[li.ingredient].name == name {
        var li :| li in items && s.ingredients[li.ingredient].name == name;
        if li != last {
          assert li in front;
        }
      }
    }
  }

  lemma {:induction false} MentionsCartRows(s: Store, order: seq<RecipeId>, name: string)
    requires ItemsResolve(s)
    ensures Mentions(CartRows(s, order), name) <==>
      exists li :: li in s.lineItems && li.recipe in order && s.ingredients[li.ingredient].name == name
  {
    if order != [] {
      var front := order[..|order| - 1];
      var r := order[|order| - 1];
      assert order == front + [r];
      MentionsCartRows(s, front, name);
      MentionsConcat(CartRows(s, front), RecipeRows(s, r), name);
      MentionsRowsOf(s, ItemsOf(s.lineItems, r), name);
    }
  }

  /** The shopping list's names are exactly the ingredient names on line
      items of the cart's recipes. */
  lemma CartKeys(s: Store, u: UserId, order: seq<RecipeId>)
    requires ItemsResolve(s)
    requires IsListing(CartOf(s, u), order)
    ensures forall name :: HasKey(Aggregate(CartRows(s, order)), name) <==> NamedInRecipes(s, CartOf(s, u), name)
  {
    var rows := CartRows(s, order);
    var m := Aggregate(rows);
    AggregateSpec(rows);
    forall name
      ensures HasKey(m, name) <==> NamedInRecipes(s, CartOf(s, u), name)
    {
      MentionsCartRows(s, order, name);
      if HasKey(m, name) {
        var i :| 0 <= i < |m| && m[i].key == name;
        assert Mentions(rows, m[i].key);
      }
      if Mentions(rows, name) {
        var j :| 0 <= j < |rows| && rows[j].key == name;
        assert HasKey(m, rows[j].key);
      }
    }
  }

  lemma {:induction false} TotalConcat<K>(a: seq<Row<K>>, b: seq<Row<K>>, k: K)
    ensures Total(a + b, k) == Total(a, k) + Total(b, k)
  {
    if a == [] {
      assert a + b == b;
    } else {
      assert (a + b)[0] == a[0];
      assert (a + b)[1..] == a[1..] + b;
      TotalConcat(a[1..], b, k);
    }
  }

  lemma {:induction false} TotalRowsOf(s: Store, items: seq<LineItem>, r: RecipeId, name: string)
    requires forall li :: li in items ==> li.ingredient in s.ingredients && li.recipe == r
    ensures Total(RowsOf(s, items), name) == AmountIn(s, items, {r}, name)
  {
    if items != [] {
      var front := items[..|items| - 1];
      var last := items[|items| - 1];
      assert forall li :: li in front ==> li in items;
      TotalRowsOf(s, front, r, name);
      TotalConcat(RowsOf(s, front), [RowOf(s, last)], name);
    }
  }

  /** Restricting the items to those of recipe `r` does not change the
      amount counted for `{r}`. */
  lemma {:induction false} AmountInItemsOf(s: Store, items: seq<LineItem>, r: RecipeId, name: string)
    requires forall li :: li in items ==> li.ingredient in s.ingredients
    ensures AmountIn(s, ItemsOf(items, r), {r}, name) == AmountIn(s, items, {r}, name)
  {
    if items != [] {
      var front := items[..|items| - 1];
      var last := items[|items| - 1];
      assert forall li :: li in front ==> li in items;
      AmountInItemsOf(s, front, r, name);
      if last.recipe == r {
        var f := ItemsOf(front, r);
        assert ItemsOf(items, r) == f + [last];
        assert (f + [last])[..|f|] == f;
      }
    }
  }

  /** Amounts over disjoint recipe sets add up. */
  lemma {:induction false} AmountInUnion(s: Store, items: seq<LineItem>, recipes: set<RecipeId>, r: RecipeId, name: string)
    requires forall li :: li in items ==> li.ingredient in s.ingredients
    requires r !in recipes
    ensures AmountIn(s, items, recipes + {r}, name) == AmountIn(s, items, recipes, name) + AmountIn(s, items, {r}, name)
  {
    if items != [] {
      var front := items[..|items| - 1];
      assert forall li :: li in front ==> li in items;
      AmountInUnion(s, front, recipes, r, name);
    }
  }

  /** Appending recipe `r` to the order adds its line items' amounts. */
  lemma TotalCartRowsSnoc(s: Store, front: seq<RecipeId>, r: RecipeId, name: string)
    requires ItemsResolve(s)
    ensures Total(CartRows(s, front + [r]), name) == Total(CartRows(s, front), name) + AmountIn(s, s.lineItems, {r}, name)
  {
    assert (front + [r])[..|front|] == front;
    TotalConcat(CartRows(s, front), RecipeRows(s, r), name);
    TotalRowsOf(s, ItemsOf(s.lineItems, r), r, name);
    AmountInItemsOf(s, s.lineItems, r, name);
  }

  lemma {:induction false} TotalCartRows(s: Store, order: seq<RecipeId>, name: string)
    requires ItemsResolve(s)
    requires forall i, j :: 0 <= i < j < |order| ==> order[i] != order[j]
    ensures Total(CartRows(s, order), name) == AmountIn(s, s.lineItems, Elements(order), name)
  {
    if order == [] {
      assert Elements(order) == {};
      AmountInNone(s, s.lineItems, name);
    } else {
      var front := order[..|order| - 1];
      var r := order[|order| - 1];
      assert order == front + [r];
      TotalCartRows(s, front, name);
      TotalCartRowsSnoc(s, front, r, name);
      assert r !in Elements(front) by {
        forall i | 0 <= i < |front| ensures front[i] != r {
          assert front[i] == order[i];
        }
      }
      AmountInUnion(s, s.lineItems, Elements(front), r, name);
      assert Elements(order) == Elements(front) + {r};
    }
  }

  lemma {:induction false} AmountInNone(s: Store, items: seq<LineItem>, name: string)
    requires forall li :: li in items ==> li.ingredient in s.ingredients
    ensures AmountIn(s, items, {}, name) == 0
  {
    if items != [] {
      var front := items[..|items| - 1];
      assert forall li :: li in front ==> li in items;
      AmountInNone(s, front, name);
    }
  }

  /** Each name's total is the sum of the amounts of every line item with
      that ingredient name across all cart recipes, whatever their order. */
  lemma CartTotal(s: Store, u: UserId, order: seq<RecipeId>, name: string)
    requires ItemsResolve(s)
    requires IsListing(CartOf(s, u), order)
    ensures Total(CartRows(s, order), name) == AmountIn(s, s.lineItems, CartOf(s, u), name)
  {
    TotalCartRows(s, order, name);
    assert Elements(order) == CartOf(s, u);
  }
}
